=== FILE: README.md ===
# OpenSpace cores in Dafny

A Dafny model of several computational cores of the OpenSpace
astrovisualisation engine, with proofs of what each promises.

- **Brick error passes** of the multi-resolution volume tree (`SandTSP`).
  For every node of the time-space partitioning tree, the spatial pass
  computes the root-mean-square deviation of the covered leaf bricks'
  voxels from the node's own brick average. The temporal pass computes the
  per-voxel deviation of the covered BST leaf bricks from the node's own
  sample, averaged over the brick. A node covering a single leaf gets the
  sentinel `-0.1`. Positive errors are compressed with `pow(e, 0.5)`
  (spatial) or `pow(e, 0.25)` (temporal) and stored, bit-cast, in one fixed
  slot of the node's entry in `data_`. The pass reports the minimum and
  maximum over the non-negative errors and the median of all of them.
- **Rover path reading**: zero-padding of site and drive numbers, the
  subsites recorded from the `rover_locations` features, and the de-duplicated
  subsites that have a model folder on disk.
- **Image label and data reading** (`ImgReader`). The `KEY=VALUE` block state
  machine over a subset of PDS3 Object Description Language labels
  (chapter 12 of the PDS3 Standards Reference). Also the big-endian word
  swap, and the band / column / line layout of the binary point data.
- **Deep Space Network data-file helpers**: time stamps cut out of file
  names, the filter keeping names whose last four characters are `json` in
  any case, and the dictionary checks.
- **Mesh generation helpers**: output folder, base name and texture name of
  a product file, the append-if-absent `filenames.txt`, the grid walk from
  the point bands to the point cloud and uv cloud, and the texture
  coordinates.
- **Rover site renderable**: path and site coordinates, the texture list,
  and model readiness.
- **Signal renderable**: the active window of a signal, the twenty floats
  pushed per signal, and the vertex array rebuilt by `update`.
- **Web GUI vector property**: `jsonToLua` and `onChange`.

Modules follow the source files: `SandTsp`, `RoverPath`, `ImgReader`,
`JsonHelper`, `MeshGeneration`, `RenderableSite`, `RenderableSignals` and
`VecProperty`. Shared pieces live in their own modules:

- `Wrappers`: `Option`, the model of a C++ exception or of a missing value.
- `Seqs`: filter, map, count and subsequence.
- `Text`: `std::getline` splitting, `std::stoi`, `find`, `find_last_of` and
  lower-casing.
- `Stats`: sum, sort, median, and the min/max the normalisation loop reports.
- `Libm`: `sqrt` and `pow`.

Modelling conventions:

- Integers are unbounded. Where the source's unsigned arithmetic matters,
  it is written out:
  - `npos + 1 == 0` in `correctPath`.
  - `index * numBrickVals` is a 32-bit `unsigned int` product in the
    sand-volume error passes wherever the index is an `unsigned int`.
  - `npos + 3` wraps to `2` in the texture name.
  - A negative `size_t` start makes `substr` throw in `getFileNameTime` and
    in the extension filter.
- A thrown exception (`std::stoi`, `substr`, `vector::at`) is `None`.
- `sqrt` and `pow` are a record of two functions. The predicate
  `Libm.Lawful` pins down exactly what the proofs use of them: `sqrt` is
  the non-negative square root, and `pow(x, 0.5)` and `pow(x, 0.25)` are the
  square and fourth roots of positive `x`.
- Floats are `real`. A word stored by `glm::floatBitsToInt` is kept as the
  float it encodes, by the constructor `SandTsp.Word.FloatBits`.
- The file system, GDAL features, the scene graph, `Time::convertTime` and
  `std::stod` are parameters: lines, records, and functions or predicates.

Behaviour of the source worth knowing, which the model keeps or makes
explicit:

- `sandtsp.cpp` never checks that a node's covered set is non-empty or lies
  inside the tree; an empty one would divide by zero. The model requires
  every covered list to be non-empty and inside the tree.
- The median is taken over all errors, sentinels included, so it can be
  `-0.1` while the reported minimum is positive; see
  `Stats.MedianCanBeSentinel`.
- `readBinaryHeader`'s `END` test can never fire: a line without `=` is
  skipped before it, so parsing runs to the end of the label; see
  `ImgReader.EndLineSkipped`.
- The data-file filter of `jsonhelper.cpp` compares only the last four
  characters of a name with `json`, so the dot is never checked:
  "notes.bjson" and "datajson" are kept; see `JsonHelper.JsonSuffixKept`.

## Model

| member | source | states |
|---|---|---|
| Text.Split | modules/globebrowsing/tasks/imgreader.cpp:33-48 | `split` as `std::getline` reads: no piece holds the delimiter, and there are no pieces exactly when the text is empty |
| Text.JoinSplit | modules/globebrowsing/tasks/imgreader.cpp:33-48 | joining the pieces with the delimiter gives back a non-empty text that does not end in the delimiter |
| Text.JoinSplitTerminated | modules/globebrowsing/tasks/imgreader.cpp:33-48 | for a text ending in the delimiter, the joined pieces plus one delimiter give the text back |
| Text.SplitJoin | modules/globebrowsing/tasks/imgreader.cpp:33-48 | delimiter-free pieces written one per line read back as the same pieces |
| Text.SplitAppendLine | modules/globebrowsing/tasks/meshgeneration.cpp:499-510 | appending a terminated line to a terminated text appends exactly that line to the lines read back |
| Text.ToLower | modules/dsn/managers/jsonhelper.cpp:55-60 | the lower-cased text has no upper-case ASCII letter, each upper-case letter moves 32 code points up, and every other character is kept |
| Text.ToLowerIdempotent | modules/dsn/managers/jsonhelper.cpp:55-60 | lower-casing an already lower-cased text changes nothing |
| Text.RemoveAll | modules/globebrowsing/tasks/imgreader.cpp:65 | the result holds exactly the characters of the input other than the removed one, in their original order (a subsequence of the input), one per occurrence |
| Text.StoiOfInt | modules/globebrowsing/models/roverpathfilereader.cpp:160-185 | `std::stoi` of the decimal text of any 32-bit `int` gives the number back |
| Text.StoiZeroPadded | modules/globebrowsing/models/roverpathfilereader.cpp:160-185 | leading zeros do not change what `std::stoi` reads |
| Text.FindLastOf | modules/globebrowsing/tasks/meshgeneration.cpp:517 | `find_last_of` of a character set: the last position holding one of them, or none when no character is in the set |
| Text.Find | modules/globebrowsing/tasks/meshgeneration.cpp:450 | `find`: the first position where the pattern occurs, or none when it occurs nowhere |
| Libm.SqrtMonotone | modules/multiresvolume/rendering/sandtsp.cpp:137 | the square root is strictly increasing on non-negative numbers |
| Libm.FourthRootMonotone | modules/multiresvolume/rendering/sandtsp.cpp:271 | `pow(x, 0.25)` is strictly increasing on positive numbers |
| Stats.Sort | modules/multiresvolume/rendering/sandtsp.cpp:176 | `std::sort` gives an ascending permutation of its input |
| Stats.SortedPermutationUnique | modules/multiresvolume/rendering/sandtsp.cpp:176 | two ascending permutations of each other are equal, so the sorted array is determined |
| Stats.Median | modules/multiresvolume/rendering/sandtsp.cpp:176-177 | the median is one of the errors |
| Stats.MedianRank | modules/multiresvolume/rendering/sandtsp.cpp:176-177 | the element at index n/2 of the sorted errors has at most n/2 errors below it and at least n/2+1 at or below it |
| Stats.ReportedStep | modules/multiresvolume/rendering/sandtsp.cpp:168-173 | folding one more error into the running minimum and maximum, skipping negative ones, keeps them the least and greatest non-negative errors, or 1e20 and 0 when there is none |
| Stats.ReportedUnique | modules/multiresvolume/rendering/sandtsp.cpp:159-174 | the reported minimum and maximum are each determined by the errors |
| Stats.MedianCanBeSentinel | modules/multiresvolume/rendering/sandtsp.cpp:159-177 | for errors `n, n, v` with a negative `n` (the leaf sentinel) and `0 <= v`, the median is the sentinel `n` while the reported minimum and maximum are both `v` |
| SandTsp.Offset | modules/multiresvolume/rendering/sandtsp.cpp:82-86 | the voxel at `headerOffset + brick*numBrickVals + i` lies inside the mapped file; the first spatial pass's `size_t` node index does not wrap |
| SandTsp.WrappedOffset | modules/multiresvolume/rendering/sandtsp.cpp:123 | with an `unsigned int` leaf index the 32-bit product `leaf*numBrickVals` wraps: the voxel read lies at or below the unwrapped one, inside the file, and equals it exactly when the product is below 2^32 |
| SandTsp.NoWrapBelow32Bits | modules/multiresvolume/rendering/sandtsp.cpp:221-245 | when all bricks fit below 2^32 floats, the wrapped addressing of the temporal pass (`brick*numBrickVals`, `*leaf*numBrickVals`) reads the same voxel as the unwrapped one |
| SandTsp.SpatialErrorCases | modules/multiresvolume/rendering/sandtsp.cpp:108-138 | a node's spatial error is the sentinel exactly when it covers one leaf; otherwise it is non-negative, and zero exactly when every covered leaf voxel equals the node's average |
| SandTsp.TemporalErrorCases | modules/multiresvolume/rendering/sandtsp.cpp:228-259 | a node's temporal error is the sentinel exactly when it covers one BST leaf; otherwise it is non-negative, and zero exactly when every covered leaf agrees with the node at every voxel |
| SandTsp.NormalizeSign | modules/multiresvolume/rendering/sandtsp.cpp:163-165 | normalisation keeps an error positive exactly when it was positive and leaves zero and the sentinel unchanged |
| SandTsp.NormalizeStrictlyIncreasing | modules/multiresvolume/rendering/sandtsp.cpp:270-272 | normalisation keeps the strict order of any two errors |
| SandTsp.NormalizeCommutesWithSort | modules/multiresvolume/rendering/sandtsp.cpp:156-177 | sorting then normalising equals normalising then sorting |
| SandTsp.NormalizedMedian | modules/multiresvolume/rendering/sandtsp.cpp:176-177 | the reported median is the normalised median of the raw errors |
| SandTsp.StoredReadBack | modules/multiresvolume/rendering/sandtsp.cpp:167 | after the pass, a node's error slot reads back as its normalised error and every other slot of its entry is unchanged |
| SandTsp.BrickAverage | modules/multiresvolume/rendering/sandtsp.cpp:80-89 | the first pass's loop computes the mean of the brick's samples |
| SandTsp.AddLeafDeviation | modules/multiresvolume/rendering/sandtsp.cpp:123-127 | the inner loop adds a leaf's squared deviations from the average to the running sum |
| SandTsp.SpatialNodeError | modules/multiresvolume/rendering/sandtsp.cpp:99-139 | the second pass's loops compute the node's spatial error |
| SandTsp.TemporalNodeError | modules/multiresvolume/rendering/sandtsp.cpp:215-260 | the per-voxel loops compute the node's temporal error |
| SandTsp.StoreNormalized | modules/multiresvolume/rendering/sandtsp.cpp:158-174 | the normalisation loop stores every node's normalised error in its slot, changes no other slot, and keeps the reported minimum and maximum |
| SandTsp.CalculateSpatialError | modules/multiresvolume/rendering/sandtsp.cpp:62-188 | an unmapped file fails with `data_` untouched; otherwise every node's normalised spatial error is in its slot, and min, max and median are reported |
| SandTsp.CalculateTemporalError | modules/multiresvolume/rendering/sandtsp.cpp:190-295 | the same for the temporal error and its slot |
| RoverPath.ConvertString | modules/globebrowsing/models/roverpathfilereader.cpp:159-186 | `convertString` fails exactly when `std::stoi` throws |
| RoverPath.PadDigits | modules/globebrowsing/models/roverpathfilereader.cpp:163-184 | a site below 100 pads to three digits, a drive below 1000 to four and a larger drive to its plain decimal, and the padded text reads back as the number |
| RoverPath.ConvertIdempotent | modules/globebrowsing/models/roverpathfilereader.cpp:131-132 | converting an already converted site below 100 or non-negative drive gives the same text |
| RoverPath.ConvertOtherKind | modules/globebrowsing/models/roverpathfilereader.cpp:162-185 | a kind other than site or drive gives the empty text |
| RoverPath.SiteOverflow | modules/globebrowsing/models/roverpathfilereader.cpp:163-170 | a site of 100 or more gives the empty text, and converting that again throws |
| RoverPath.NegativeDrivePadded | modules/globebrowsing/models/roverpathfilereader.cpp:172-173 | every negative drive `-n` in the 32-bit range converts to "000-n": the padding goes in front of the sign |
| RoverPath.NegativeDriveNotIdempotent | modules/globebrowsing/models/roverpathfilereader.cpp:131-132 | any text "000-…" converts to "0000", because parsing stops at the sign; so converting a converted negative drive again gives "0000", and conversion is not idempotent on negative drives |
| RoverPath.LastSite | modules/globebrowsing/models/roverpathfilereader.cpp:79-83 | the site coordinates are those of the last located SITE feature so far, and absent before the first |
| RoverPath.RecordingsFollowFeatures | modules/globebrowsing/models/roverpathfilereader.cpp:79-101 | the subsites are, in order, exactly the located features whose drive is not "-1" |
| RoverPath.ExtractAllSubsites | modules/globebrowsing/models/roverpathfilereader.cpp:42-108 | fails exactly when the `RoverLocationPath` key is missing, the location file does not open, or a site or drive field does not parse; otherwise returns those subsites |
| RoverPath.RecordSubsites | modules/globebrowsing/models/roverpathfilereader.cpp:68-105 | the feature loop records those subsites, and fails exactly when a site or drive field does not parse |
| RoverPath.FileNames | modules/globebrowsing/models/roverpathfilereader.cpp:188-201 | `extractFileNames` returns lines free of line breaks, and none when the file cannot be opened |
| RoverPath.FileNamesRoundTrip | modules/globebrowsing/models/roverpathfilereader.cpp:188-201 | a file written one name per line reads back as the names |
| RoverPath.FirstWith | modules/globebrowsing/models/roverpathfilereader.cpp:138-146 | the first subsite with models and a given site/drive pair |
| RoverPath.KeepStepSkip | modules/globebrowsing/models/roverpathfilereader.cpp:138-146 | a subsite without models, or whose pair is already kept, is skipped without breaking the keep-first invariant |
| RoverPath.KeepStepAdd | modules/globebrowsing/models/roverpathfilereader.cpp:147-153 | a subsite with models and a new pair is kept with its file names, preserving the invariant |
| RoverPath.ContainsKey | modules/globebrowsing/models/roverpathfilereader.cpp:141-146 | the search finds a kept subsite with the pair exactly when there is one |
| RoverPath.ExtractSubsitesWithModels | modules/globebrowsing/models/roverpathfilereader.cpp:110-157 | fails exactly when the `RoverLocationPath` or `ModelPath` key is missing, the location file does not open, or a conversion throws; otherwise keeps, in order, the first subsite of every site/drive pair whose drive folder exists |
| RoverPath.KeepWithModels | modules/globebrowsing/models/roverpathfilereader.cpp:127-155 | the subsite loop keeps the first subsite of every pair with a drive folder, with the names of its `filenames.txt` (none when it does not open), and fails exactly when a re-conversion throws |
| ImgReader.NextBlockTable | modules/globebrowsing/tasks/imgreader.cpp:70-79 | the block changes only on the OBJECT/END_OBJECT IMAGE and IMAGE_HEADER and GROUP/END_GROUP ROVER_COORDINATE_SYSTEM lines, and a bare opening or closing key throws |
| ImgReader.FieldScope | modules/globebrowsing/tasks/imgreader.cpp:81-118 | BYTES is read only inside IMAGE_HEADER, and LINES, LINE_SAMPLES and BANDS only inside IMAGE, each as `std::stoi` of the value |
| ImgReader.EndLineSkipped | modules/globebrowsing/tasks/imgreader.cpp:64-67 | an END line is skipped, and parsing goes on after it |
| ImgReader.QuaternionNeedsFourParts | modules/globebrowsing/tasks/imgreader.cpp:85-97 | a quaternion value with at most three comma-separated parts always throws |
| ImgReader.SwapInvolution | modules/globebrowsing/tasks/imgreader.cpp:140-143 | the byte swap undoes itself, and fixes exactly the palindromic words |
| ImgReader.SkipToData | modules/globebrowsing/tasks/imgreader.cpp:134-149 | the header loop stops just after the first word that decodes to zero, or at the end of the file |
| ImgReader.ReadBand | modules/globebrowsing/tasks/imgreader.cpp:156-172 | one band is the next `cols*lines` swapped words, columns outer and lines inner |
| ImgReader.ReadBinaryData | modules/globebrowsing/tasks/imgreader.cpp:127-176 | the data is `bands` consecutive bands after the first zero word, and the read fails exactly when the file is too short for them |
| JsonHelper.FileNameTime | modules/dsn/managers/jsonhelper.cpp:146-156 | the stamp has the asked length, and the call throws exactly when the name is shorter than the stamp plus ".json" |
| JsonHelper.FileNameTimeOfName | modules/dsn/managers/jsonhelper.cpp:146-156 | the stamp is recovered from any name built as prefix, stamp and a five-character extension |
| JsonHelper.DayFromFileName | modules/dsn/managers/jsonhelper.cpp:128-132 | the day is the nine characters ending five before the end of the name |
| JsonHelper.ExtractTriggerTimes | modules/dsn/managers/jsonhelper.cpp:158-166 | one time per file in file order, failing exactly when some name is too short |
| JsonHelper.DaysFromFileNames | modules/dsn/managers/jsonhelper.cpp:133-137 | the day stamps of all files, converted in order |
| JsonHelper.HoursFromFileNames | modules/dsn/managers/jsonhelper.cpp:140-144 | the eleven-character hour stamps of all files, converted in order |
| JsonHelper.ExtensionFilter | modules/dsn/managers/jsonhelper.cpp:90-106 | a name is kept exactly when its last characters, lower-cased, are the type, and the filter throws on a name shorter than the type |
| JsonHelper.KeepsIgnoresCase | modules/dsn/managers/jsonhelper.cpp:97-103 | two names that lower-case alike are kept or dropped together |
| JsonHelper.JsonSuffixKept | modules/dsn/managers/jsonhelper.cpp:97-103 | any name ending in `json` in any case is kept, whether or not a dot precedes it |
| JsonHelper.ExtensionFilterOrder | modules/dsn/managers/jsonhelper.cpp:90-106 | the kept names keep the listing's order |
| JsonHelper.CheckFileNames | modules/dsn/managers/jsonhelper.cpp:46-125 | success means a json type, an existing folder and a non-empty ordered list of files whose names end in `json` in any case; each early return (a type other than `json`, a missing or absent folder) gives `false` without throwing and leaves the file list alone |
| JsonHelper.CheckFileNamesSucceeds | modules/dsn/managers/jsonhelper.cpp:62-124 | conversely, those conditions with at least one name ending in `json` in any case give success with the filtered listing |
| JsonHelper.MissingTypeFails | modules/dsn/managers/jsonhelper.cpp:52-71 | a missing type entry is not an early return, but the empty type then fails the json test |
| MeshGeneration.BaseName | modules/globebrowsing/tasks/meshgeneration.cpp:64-68 | the base name holds no '/' |
| MeshGeneration.BaseNameOfPath | modules/globebrowsing/tasks/meshgeneration.cpp:64-68 | the base name of `dir/name.ext` is `name` |
| MeshGeneration.CorrectPathOfName | modules/globebrowsing/tasks/meshgeneration.cpp:514-524 | a product named with a '_' or 'F' marker, then a three-digit site and a four-digit drive, maps to `<output>site<SSS>/drive<DDDD>/` |
| MeshGeneration.TextureName | modules/globebrowsing/tasks/meshgeneration.cpp:450-451 | with an "XYR" the name keeps its length; without one the call throws exactly when the name is shorter than two characters |
| MeshGeneration.TextureNameReplaces | modules/globebrowsing/tasks/meshgeneration.cpp:450-451 | the texture name is the base name with its first "XYR" replaced by "RAS" and nothing else changed |
| MeshGeneration.WriteTxtFileIdempotent | modules/globebrowsing/tasks/meshgeneration.cpp:492-512 | for a file whose last line is terminated (or no file) and a name without a line break, writing the name adds it as a line only if no line equals it, keeps the old content as a prefix, and a second write changes nothing |
| MeshGeneration.WriteTxtFileUnterminated | modules/globebrowsing/tasks/meshgeneration.cpp:495-510 | when the last line is not terminated, the name is glued onto it and a second write appends the name again, so the write is not idempotent |
| MeshGeneration.GridAt | modules/globebrowsing/tasks/meshgeneration.cpp:94-101 | pixel (i, k) is sample `i*lines + k`, the point (band 1, band 0, -band 2) |
| MeshGeneration.GridWalk | modules/globebrowsing/tasks/meshgeneration.cpp:94-131 | the cloud is the non-origin grid points in reading order, the uv cloud the non-origin pixels short of the last column and line, and the walk throws exactly when a band is too short |
| MeshGeneration.TexCoordInUnitSquare | modules/globebrowsing/tasks/meshgeneration.cpp:292-306 | the shifted and wrapped `u` and the `v` of a pixel inside the grid lie in (0, 1] |
| MeshGeneration.UvCloudTexCoords | modules/globebrowsing/tasks/meshgeneration.cpp:110-123 | every uv-cloud pixel lies inside the grid, so its texture coordinates lie in (0, 1] |
| RenderableSite.ExtractCoordinates | modules/globebrowsing/models/renderablesite.cpp:276-348 | the path is the located features' coordinates in order, the sites those in the SITE frame, and the result is true exactly when the path is non-empty |
| RenderableSite.SitesOnPath | modules/globebrowsing/models/renderablesite.cpp:335-340 | the sites are an order-preserving subsequence of the path |
| RenderableSite.LoadTexturePaths | modules/globebrowsing/models/renderablesite.cpp:257-274 | the texture paths are line-break-free lines, and none when the file cannot be opened |
| RenderableSite.LoadTexturePathsRoundTrip | modules/globebrowsing/models/renderablesite.cpp:257-274 | a list written one path per line reads back as the paths |
| RenderableSite.IsReady | modules/globebrowsing/models/renderablesite.cpp:161-169 | ready exactly when every model has a texture, which holds trivially with no models |
| RenderableSite.CountBelowLength | modules/globebrowsing/models/renderablesite.cpp:161-169 | one untextured model keeps the number of textured models below the total |
| RenderableSite.LoadTextureTwice | modules/globebrowsing/models/renderablesite.cpp:350-362 | loading the textures again with the same outcomes changes nothing |
| RenderableSite.LoadTextureReady | modules/globebrowsing/models/renderablesite.cpp:350-362 | after loading, every model is textured exactly when every path loads, and paths and programs are kept |
| RenderableSite.Initialize | modules/globebrowsing/models/renderablesite.cpp:119-144 | success exactly when every missing program builds and every texture loads, leaving every model with a program and a texture |
| RenderableSignals.ActiveInterval | modules/dsn/rendering/renderablesignals.cpp:437-446 | a signal is active on an interval that starts at its start of transmission |
| RenderableSignals.FloatsRoundTrip | modules/dsn/rendering/renderablesignals.cpp:429-430 | the ten floats of a vertex, appended to an array of whole vertices, read back as the vertex |
| RenderableSignals.PushSignalFloats | modules/dsn/rendering/renderablesignals.cpp:467-501 | pushing a signal appends the floats of its station vertex and then of its spacecraft vertex |
| RenderableSignals.PushSignal | modules/dsn/rendering/renderablesignals.cpp:458-502 | pushing a signal appends exactly twenty floats |
| RenderableSignals.PushSignalVertices | modules/dsn/rendering/renderablesignals.cpp:458-502 | the two appended vertices sit at the station and the spacecraft with the same colour, time since start and duration, and distance zero at the station for an uplink and at the spacecraft for a downlink |
| RenderableSignals.PushedLayout | modules/dsn/rendering/renderablesignals.cpp:406-413 | the j-th block of twenty floats is the j-th pushed signal, stamped with its time since start |
| RenderableSignals.PushedStep | modules/dsn/rendering/renderablesignals.cpp:406-413 | one more signal extends the array exactly when it is active |
| RenderableSignals.PushActive | modules/dsn/rendering/renderablesignals.cpp:406-413 | the loop pushes the active signals in order |
| RenderableSignals.Update | modules/dsn/rendering/renderablesignals.cpp:372-434 | data is reloaded exactly when the time leaves `[start, end)` or an update is requested; the array then holds the active signals in order, and the line count is twice their number |
| VecProperty.RemoveFirstKeepsOthers | modules/webgui/web/src/components/Sidebar/Properties/VecProperty.jsx:7-9 | removing the first occurrence of a character keeps every other character in order |
| VecProperty.RemoveFirstOther | modules/webgui/web/src/components/Sidebar/Properties/VecProperty.jsx:7-9 | removing the first occurrence of a character leaves the presence of any other character unchanged |
| VecProperty.JsonToLuaRemovesBrackets | modules/webgui/web/src/components/Sidebar/Properties/VecProperty.jsx:7-9 | `jsonToLua` shortens the text by one for each bracket kind present and keeps all other characters in order |
| VecProperty.JsonToLuaOfArray | modules/webgui/web/src/components/Sidebar/Properties/VecProperty.jsx:7-9 | a bracketed body without brackets converts to the body |
| VecProperty.OnChange | modules/webgui/web/src/components/Sidebar/Properties/VecProperty.jsx:11-22 | only the changed component takes the new value, and the saved value is `jsonToLua` of the new state's JSON |
| VecProperty.SavedIsList | modules/webgui/web/src/components/Sidebar/Properties/VecProperty.jsx:13-17 | the saved value is the components joined by commas and splits back into them |
| VecProperty.OnChangeTwice | modules/webgui/web/src/components/Sidebar/Properties/VecProperty.jsx:13-20 | two changes at the same index leave the later one; at different indices they commute |

## Left out

- Memory mapping, IEEE-754 rounding, `float` versus `double` accumulation and all floating-point error: values are `real`.
- `glm::floatBitsToInt` is modelled as an injective encoding, not as bits.
- The `sizeof(float) != sizeof(int)` check in `calculateSpatialError` is not modelled; it never fails on the platforms the engine targets.
- The raw min/max trackers in the spatial pass are not modelled; they are never read.
- SandTsp.Volume: `Valid` asks for at least one node and a non-zero padded brick side. With no nodes the source reads `stdDevs[stdDevs.size() / 2]` of an empty vector, and with a zero side it divides 0 by 0; neither case is modelled.
- SandTsp.Volume: `numBrickVals` is the unbounded cube of the padded brick side. The source stores it in an `unsigned int`, which wraps only for a padded side above 1625 (one brick of 2^32 floats); that wrap is not modelled.
- SandTsp.CalculateSpatialError: requires every covered list to be non-empty and inside the tree. The TSP base class (`CoveredLeafBricks`, `CoveredBSTLeafBricks`, `dataPosition`) is not part of this model, and an empty list would divide by zero.
- The entry layout of `data_` (`NUM_DATA = 4`, spatial slot 2, temporal slot 3) comes from `tsp.h`, which is not part of this model. The proofs use only that the slots are distinct and below `NUM_DATA`.
- `sqrt` and `pow` are characterised by `Libm.Lawful` rather than computed.
- The rover path reader's GDAL and OGR calls are not modelled: the features of an opened location file are a sequence of records, and whether a file opens is a parameter.
- A dataset that fails to open is dereferenced by the source; this is not modelled.
- RoverPath.ExtractAllSubsites: the site coordinates before the first SITE feature are `None`; the source copies uninitialised doubles there.
- RoverPath.ConvertIdempotent: holds only for sites below 100 and non-negative drives. A site of 100 or more and a negative drive break it; `SiteOverflow` and `NegativeDriveNotIdempotent` state how.
- ImgReader.ReadBinaryData: a read past the end of the file leaves the source's float unset; the model fails instead.
- ImgReader.ReadBinaryData: the caller's `xyz` is taken to be empty.
- ImgReader: the first zero word is consumed by the header loop and is not stored in any band, as in the source.
- `std::stod` in the quaternion parsing is a parameter.
- The quaternion line read on the following line is consumed and discarded, as in the source.
- The `PointCloudInfo` defaults live in `imgreader.h`, which is not part of this model; fields never set are `None`.
- JsonHelper.CheckFileNames: `ghoul::filesystem::Directory` path normalisation and sorting are inside the `readFiles` parameter.
- `Time::convertTime` is a parameter.
- The PCL pipeline in `generateMeshFromBinary` is not modelled: voxel grid, normals, greedy triangulation, kd-tree search and `MeshWriter`.
- MeshGeneration.TexCoordInUnitSquare: covers the `u` and `v` of the pixel itself (`tc1`), which is what is written. The other corners `tc2`, `tc3` and `tc4` are not stored.
- MeshGeneration.WriteTxtFileIdempotent: holds only for a file whose last line ends in a line break and a name without one; outside that the source appends the name again on every call (`WriteTxtFileUnterminated`).
- RenderableSite: GDAL is not modelled, and the path is taken as initialised.
- RenderableSite: shader program building and texture reading are parameters.
- RenderableSite: the render code is not modelled.
- RenderableSignals.Update: the reload is a parameter. `findFileIndexForCurrentTime` and `updateSignalData` are not part of this model, nor is the warning when no file covers the time.
- RenderableSignals: the scene lookups (station colour, node positions, distance) are taken as total functions. `getStationColor` throws for an unknown dish; this is not modelled.
- The vertex layout sizes `_sizeThreeVal`, `_sizeFourVal` and `_sizeOneVal` (3, 4, 1) come from `renderablesignals.h`, which is not part of this model. They agree with the ten `push_back`s per vertex in `renderablesignals.cpp`.
- All OpenGL buffer, attribute, shader and draw code is not modelled.
- VecProperty: `JSON.parse`, `parseFloat` (including `NaN`) and number formatting are not modelled; the formatting of one number is a parameter.
- VecProperty: `saveValue`, `setState` and the React rendering are not modelled.
- Scene-graph lookups, ellipsoid and quaternion maths, and `multimodelprovider.cpp` are not modelled.
- `vislinkmodule.cpp` (a networked server thread) is not modelled.
- `MultiInputs.jsx` (presentation only) is not modelled.
- The header-only declarations (`chunk.h`, `renderabletest.h`, `spacecraftimagerymanager.h`, `renderableroversurface.h`) are not modelled.

=== FILE: img_reader.dfy ===
/** The image reader for rover point-cloud products: the `KEY=VALUE` label
    of a PDS3 product (a small subset of the Object Description Language,
    chapter 12 of the PDS3 Standards Reference), read as a block state
    machine, and the big-endian float data that follows it. */
module ImgReader {
  import opened Wrappers
  import Seqs
  import opened Text

  // ---------------------------------------------------------------------
  // readBinaryHeader

  /** The block the label parser is in; the source keeps it as a string
      ("", "IMAGE", "IMAGE_HEADER", "ROVER_COORDINATE_SYSTEM"). */
  datatype Block = NoBlock | Image | ImageHeader | RoverCoordinateSystem

  /** The fields the parser fills. `None` is a field no label line set,
      where the source leaves the member at its initial value. */
  datatype PointCloudInfo = PointCloudInfo(
    bytes: Option<int>, lines: Option<int>, cols: Option<int>, bands: Option<int>,
    roverOrigin: seq<real>)

  const Unset := PointCloudInfo(None, None, None, None, [])

  /** Every space is removed from a line before it is looked at. */
  function CleanLine(line: string): string
  {
    RemoveAll(line, ' ')
  }

  /** Cleaned lines that are empty or have no '=' are skipped. */
  predicate Skipped(line: string)
  {
    line == [] || '=' !in line
  }

  /** One pair of checks of the form
      `if (s.at(0) == open && s.at(1) == name) block = target;
       else if (s.at(0) == close && s.at(1) == name) block = "";`
      where `s.at(1)` throws (`None`) on a line with one piece. */
  function Toggle(block: Block, s: seq<string>, open: string, close: string, name: string, target: Block): Option<Block>
    requires |s| >= 1
  {
    if s[0] == open && |s| < 2 then None
    else if s[0] == open && s[1] == name then Some(target)
    else if s[0] == close && |s| < 2 then None
    else if s[0] == close && s[1] == name then Some(NoBlock)
    else Some(block)
  }

  /** The three block checks in source order. */
  function NextBlock(block: Block, s: seq<string>): Option<Block>
    requires |s| >= 1
  {
    match Toggle(block, s, "OBJECT", "END_OBJECT", "IMAGE", Image)
    case None => None
    case Some(b1) =>
      match Toggle(b1, s, "OBJECT", "END_OBJECT", "IMAGE_HEADER", ImageHeader)
      case None => None
      case Some(b2) => Toggle(b2, s, "GROUP", "END_GROUP", "ROVER_COORDINATE_SYSTEM", RoverCoordinateSystem)
  }

  /** The keys whose second piece the block checks read. */
  predicate OpensOrCloses(key: string)
  {
    key == "OBJECT" || key == "END_OBJECT" || key == "GROUP" || key == "END_GROUP"
  }

  /** The block a `KEY=NAME` line leads to, as a table of the six pairs
      the parser knows. */
  function PairTarget(block: Block, key: string, name: string): Block
  {
    if key == "OBJECT" && name == "IMAGE" then Image
    else if key == "OBJECT" && name == "IMAGE_HEADER" then ImageHeader
    else if key == "GROUP" && name == "ROVER_COORDINATE_SYSTEM" then RoverCoordinateSystem
    else if key == "END_OBJECT" && (name == "IMAGE" || name == "IMAGE_HEADER") then NoBlock
    else if key == "END_GROUP" && name == "ROVER_COORDINATE_SYSTEM" then NoBlock
    else block
  }

  /** The block changes only on the six opening and closing pairs; a
      block keyword without a second piece throws. */
  lemma NextBlockTable(block: Block, s: seq<string>)
    requires |s| >= 1
    ensures OpensOrCloses(s[0]) && |s| < 2 ==> NextBlock(block, s) == None
    ensures !OpensOrCloses(s[0]) ==> NextBlock(block, s) == Some(block)
    ensures OpensOrCloses(s[0]) && |s| >= 2 ==> NextBlock(block, s) == Some(PairTarget(block, s[0], s[1]))
  {
  }

  /** `s.at(1)`. */
  function Second(s: seq<string>): Option<string>
  {
    if |s| >= 2 then Some(s[1]) else None
  }

  function StoiSecond(s: seq<string>): Option<int>
  {
    match Second(s)
    case None => None
    case Some(v) => Stoi(v)
  }

  /** The `ORIGIN_ROTATION_QUATERNION` value: three components are read
      with `stod` (a parameter here), the first after its '('. With exactly
      three comma-separated parts the source then reads a fourth part and
      throws; otherwise it drops the next label line. Returns the three
      components. */
  function Quaternion(stod: string -> Option<real>, s: seq<string>): Option<seq<real>>
  {
    match Second(s)
    case None => None
    case Some(v) =>
      var temp := Split(v, ',');
      if |temp| < 3 then None
      else
        var open := Split(temp[0], '(');
        if |open| < 2 then None
        else
          match (stod(open[1]), stod(temp[1]), stod(temp[2]))
          case (Some(x), Some(y), Some(z)) => if |temp| == 3 then None else Some([x, y, z])
          case _ => None
  }

  /** The field update of one line in block `block`, and how many extra
      label lines it consumes. */
  function Field(stod: string -> Option<real>, block: Block, s: seq<string>, info: PointCloudInfo): Option<(PointCloudInfo, nat)>
    requires |s| >= 1
  {
    if block == ImageHeader then
      if s[0] == "BYTES" then
        match StoiSecond(s)
        case None => None
        case Some(v) => Some((info.(bytes := Some(v)), 0))
      else Some((info, 0))
    else if block == RoverCoordinateSystem then
      if s[0] == "ORIGIN_ROTATION_QUATERNION" then
        match Quaternion(stod, s)
        case None => None
        case Some(q) => Some((info.(roverOrigin := info.roverOrigin + q), 1))
      else Some((info, 0))
    else if block == Image then
      if s[0] == "LINES" || s[0] == "LINE_SAMPLES" || s[0] == "BANDS" then
        match StoiSecond(s)
        case None => None
        case Some(v) =>
          if s[0] == "LINES" then Some((info.(lines := Some(v)), 0))
          else if s[0] == "LINE_SAMPLES" then Some((info.(cols := Some(v)), 0))
          else Some((info.(bands := Some(v)), 0))
      else Some((info, 0))
    else Some((info, 0))
  }

  /** `BYTES` is taken only inside IMAGE_HEADER and `LINES`,
      `LINE_SAMPLES` and `BANDS` only inside IMAGE; a taken value is the
      line's number, replacing any earlier one. */
  lemma FieldScope(stod: string -> Option<real>, block: Block, s: seq<string>, info: PointCloudInfo)
    requires |s| >= 1 && Field(stod, block, s, info).Some?
    ensures var info' := Field(stod, block, s, info).value.0;
      && (info'.bytes != info.bytes ==> block == ImageHeader && s[0] == "BYTES")
      && (info'.lines != info.lines ==> block == Image && s[0] == "LINES")
      && (info'.cols != info.cols ==> block == Image && s[0] == "LINE_SAMPLES")
      && (info'.bands != info.bands ==> block == Image && s[0] == "BANDS")
      && (block == ImageHeader && s[0] == "BYTES" ==> info'.bytes == StoiSecond(s))
      && (block == Image && s[0] == "LINES" ==> info'.lines == StoiSecond(s))
      && (block == Image && s[0] == "LINE_SAMPLES" ==> info'.cols == StoiSecond(s))
      && (block == Image && s[0] == "BANDS" ==> info'.bands == StoiSecond(s))
  {
  }

  /** The parser from label line `i` on, in block `block` with the fields
      read so far; `None` where the source throws. */
  function ParseFrom(stod: string -> Option<real>, lines: seq<string>, i: nat, block: Block, info: PointCloudInfo): Option<PointCloudInfo>
    decreases |lines| - i
  {
    if i >= |lines| then Some(info)
    else
      var line := CleanLine(lines[i]);
      if Skipped(line) then ParseFrom(stod, lines, i + 1, block, info)
      else if line == "END" then Some(info)
      else
        var s := Split(line, '=');
        match NextBlock(block, s)
        case None => None
        case Some(b) =>
          match Field(stod, b, s, info)
          case None => None
          case Some((info', extra)) => ParseFrom(stod, lines, i + 1 + extra, b, info')
  }

  /** `readBinaryHeader` over the lines of the label. */
  function ReadBinaryHeader(stod: string -> Option<real>, lines: seq<string>): Option<PointCloudInfo>
  {
    ParseFrom(stod, lines, 0, NoBlock, Unset)
  }

  /** An `END` line has no '=', so it is skipped before the `END` check
      and parsing goes on past it. */
  lemma EndLineSkipped(stod: string -> Option<real>, lines: seq<string>, i: nat, block: Block, info: PointCloudInfo)
    requires i < |lines| && CleanLine(lines[i]) == "END"
    ensures ParseFrom(stod, lines, i, block, info) == ParseFrom(stod, lines, i + 1, block, info)
  {
    assert '=' !in "END";
  }

  /** With exactly three comma-separated parts the quaternion line always
      throws: the source reads a fourth part unconditionally. */
  lemma QuaternionNeedsFourParts(stod: string -> Option<real>, s: seq<string>)
    requires |s| >= 2 && |Split(s[1], ',')| <= 3
    ensures Quaternion(stod, s) == None
  {
  }

  // ---------------------------------------------------------------------
  // readBinaryData

  /** One 4-byte word of the data file, in file order. */
  datatype Word = Word(b0: bv8, b1: bv8, b2: bv8, b3: bv8)

  /** The big-endian conversion: the bytes of the word in reverse order. */
  function Swap(w: Word): Word
  {
    Word(w.b3, w.b2, w.b1, w.b0)
  }

  /** Reversing the bytes twice gives the word back. */
  lemma SwapInvolution(w: Word)
    ensures Swap(Swap(w)) == w
    ensures Swap(w) == w <==> w.b0 == w.b3 && w.b1 == w.b2
  {
  }

  /** The float a word holds once its bytes are swapped; `decode` stands
      for reading four bytes as a host `float`. */
  function Value(decode: Word -> real, w: Word): real
  {
    decode(Swap(w))
  }

  function IsZeroWord(decode: Word -> real): Word -> bool
  {
    w => Value(decode, w) == 0.0
  }

  /** Where the data starts: just past the first word whose value is zero,
      or the end of the file when there is none. */
  function DataStart(decode: Word -> real, words: seq<Word>): (k: nat)
    ensures k <= |words|
  {
    var z := Seqs.FirstIndex(words, IsZeroWord(decode));
    if z < |words| then z + 1 else |words|
  }

  /** The loop bound a signed header count gives: a negative count runs no
      iteration. */
  function Clamp(n: int): nat
  {
    if n < 0 then 0 else n
  }

  /** `n` consecutive values read from word `from` on. */
  function Band(decode: Word -> real, words: seq<Word>, from: nat, n: nat): (r: seq<real>)
    requires from + n <= |words|
    ensures |r| == n
  {
    seq(n, t requires 0 <= t < n => Value(decode, words[from + t]))
  }

  lemma BandSnoc(decode: Word -> real, words: seq<Word>, from: nat, n: nat)
    requires from + n < |words|
    ensures Band(decode, words, from, n + 1) == Band(decode, words, from, n) + [Value(decode, words[from + n])]
  {
  }

  /** A row of `b` items of width `w` followed by one more still fits in
      `n` rows when `a < n`. */
  lemma MulStep(a: nat, w: nat, n: nat)
    requires a < n
    ensures a * w + w <= n * w
  {
    assert a * w + w == (a + 1) * w;
  }

  /** Pixel `(j, k)` of a band, stored at `j * lines + k`, lies inside the
      band. */
  lemma GridIndex(cols: nat, lines: nat, j: nat, k: nat)
    requires j < cols && k < lines
    ensures j * lines + k < cols * lines
  {
    MulStep(j, lines, cols);
  }

  /** The header scan of `readBinaryData`: reads words until one whose
      value is zero has been read, and returns the position after it. */
  method SkipToData(decode: Word -> real, words: seq<Word>) returns (pos: nat)
    ensures pos == DataStart(decode, words)
  {
    pos := 0;
    var found := false;
    while !found && pos < |words|
      invariant pos <= |words|
      invariant forall i :: 0 <= i < pos - (if found then 1 else 0) ==> !IsZeroWord(decode)(words[i])
      invariant found ==> 0 < pos && IsZeroWord(decode)(words[pos - 1])
    {
      if Value(decode, words[pos]) == 0.0 {
        found := true;
      }
      pos := pos + 1;
    }
  }

  /** One band: `cols` columns of `lines` values each, read in file
      order, so pixel `(j, k)` lands at `j * lines + k` (`GridIndex`). */
  method ReadBand(decode: Word -> real, words: seq<Word>, from: nat, cols: nat, lines: nat)
    returns (band: seq<real>)
    requires from + cols * lines <= |words|
    ensures band == Band(decode, words, from, cols * lines)
  {
    band := [];
    var j := 0;
    while j < cols
      invariant j <= cols && |band| == j * lines
      invariant band == Band(decode, words, from, |band|)
    {
      MulStep(j, lines, cols);
      var k := 0;
      while k < lines
        invariant k <= lines && |band| == j * lines + k
        invariant band == Band(decode, words, from, |band|)
      {
        BandSnoc(decode, words, from, |band|);
        band := band + [Value(decode, words[from + |band|])];
        k := k + 1;
      }
      j := j + 1;
    }
  }

  /** Where band `b` starts when bands of `size` values follow `start`. */
  function BandStart(start: nat, b: nat, size: nat): nat
  {
    start + b * size
  }

  /** `readBinaryData`: skips through the first zero word, then reads
      `bands` bands of `cols * lines` values each. A read past the end of
      the file leaves the float unset in the source; the model returns
      `None` for such a file. */
  method ReadBinaryData(decode: Word -> real, words: seq<Word>, bands: int, cols: int, lines: int)
    returns (xyz: Option<seq<seq<real>>>)
    ensures var start := DataStart(decode, words);
      var size := Clamp(cols) * Clamp(lines);
      && (xyz.None? <==> BandStart(start, Clamp(bands), size) > |words|)
      && (xyz.Some? ==> |xyz.value| == Clamp(bands))
      && (xyz.Some? ==> forall b :: 0 <= b < Clamp(bands) ==>
            BandStart(start, b, size) + size <= |words|
            && xyz.value[b] == Band(decode, words, BandStart(start, b, size), size))
  {
    var start := SkipToData(decode, words);
    var nb, nc, nl := Clamp(bands), Clamp(cols), Clamp(lines);
    var size := nc * nl;
    if start + nb * size > |words| {
      return None;
    }
    var out: seq<seq<real>> := [];
    var b, at := 0, start;
    while b < nb
      invariant b <= nb && |out| == b && at == BandStart(start, b, size)
      invariant forall c :: 0 <= c < b ==>
        BandStart(start, c, size) + size <= |words| && out[c] == Band(decode, words, BandStart(start, c, size), size)
    {
      MulStep(b, size, nb);
      var band := ReadBand(decode, words, at, nc, nl);
      out := out + [band];
      assert at + size == BandStart(start, b + 1, size);
      b, at := b + 1, at + size;
    }
    xyz := Some(out);
  }
}

=== FILE: json_helper.dfy ===
/** The data-file helpers of the Deep Space Network module: validating the
    `DataFolder` and `DataFileType` entries of an asset's dictionary, keeping
    the files of the folder whose names end in `json` in any case, and
    reading each file's trigger time out of its name (`...YYYY-DDDT.json`
    for days, `...YYYY-DDDTHH.json` for hours). */
module JsonHelper {
  import opened Wrappers
  import Seqs
  import opened Text

  /** `size(".json")`. */
  const ExtSize: nat := 5
  /** Characters of a day stamp `YYYY-DDDT`. */
  const DaySize: nat := 9
  /** Characters of an hour stamp `YYYY-DDDTHH`. */
  const HourSize: nat := 11

  /** The only data-file type the helper accepts. */
  const JsonType: string := "json"

  /** `getFileNameTime`: the `n` characters that end `ExtSize` characters
      before the end of the name. The start index is computed in unsigned
      arithmetic, so a name shorter than `n + ExtSize` makes `substr`
      throw (`None`). */
  function FileNameTime(filename: string, n: nat): (r: Option<string>)
    ensures r.None? <==> |filename| < n + ExtSize
    ensures r.Some? ==> |r.value| == n
  {
    if |filename| < n + ExtSize then None
    else Some(filename[|filename| - n - ExtSize..|filename| - ExtSize])
  }

  /** The stamp is recovered from any name built as
      `prefix + stamp + extension` with a five-character extension. */
  lemma FileNameTimeOfName(prefix: string, stamp: string, ext: string)
    requires |ext| == ExtSize
    ensures FileNameTime(prefix + stamp + ext, |stamp|) == Some(stamp)
  {
    var f := prefix + stamp + ext;
    assert f[|f| - |stamp| - ExtSize..|f| - ExtSize] == stamp;
  }

  /** `getDayFromFileName`. */
  function DayFromFileName(filename: string): (r: Option<string>)
    ensures r.Some? <==> |filename| >= DaySize + ExtSize
    ensures r.Some? ==> r.value == filename[|filename| - 14..|filename| - 5]
  {
    FileNameTime(filename, DaySize)
  }

  /** `extractTriggerTimesFromFileNames`: one time per file, in file order;
      `convertTime` (time parsing in the host library) is a parameter. A
      name too short for its stamp throws. */
  method ExtractTriggerTimes(convertTime: string -> real, dataFiles: seq<string>, n: nat)
    returns (r: Option<seq<real>>)
    ensures r.None? <==> exists i :: 0 <= i < |dataFiles| && |dataFiles[i]| < n + ExtSize
    ensures r.Some? ==> |r.value| == |dataFiles|
    ensures r.Some? ==> forall i :: 0 <= i < |dataFiles| ==>
      r.value[i] == convertTime(FileNameTime(dataFiles[i], n).value)
  {
    var times: seq<real> := [];
    var i := 0;
    while i < |dataFiles|
      invariant i <= |dataFiles| && |times| == i
      invariant forall k :: 0 <= k < i ==> |dataFiles[k]| >= n + ExtSize
      invariant forall k :: 0 <= k < i ==> times[k] == convertTime(FileNameTime(dataFiles[k], n).value)
    {
      var t := FileNameTime(dataFiles[i], n);
      if t.None? {
        return None;
      }
      times := times + [convertTime(t.value)];
      i := i + 1;
    }
    r := Some(times);
  }

  /** `getDaysFromFileNames`. */
  method DaysFromFileNames(convertTime: string -> real, dataFiles: seq<string>) returns (r: Option<seq<real>>)
    ensures r.Some? ==> |r.value| == |dataFiles|
    ensures r.Some? <==> forall i :: 0 <= i < |dataFiles| ==> DayFromFileName(dataFiles[i]).Some?
    ensures r.Some? ==> forall i :: 0 <= i < |dataFiles| ==>
      r.value[i] == convertTime(DayFromFileName(dataFiles[i]).value)
  {
    r := ExtractTriggerTimes(convertTime, dataFiles, DaySize);
  }

  /** `getHoursFromFileNames`. */
  method HoursFromFileNames(convertTime: string -> real, dataFiles: seq<string>) returns (r: Option<seq<real>>)
    ensures r.Some? ==> |r.value| == |dataFiles|
    ensures r.Some? <==> forall i :: 0 <= i < |dataFiles| ==> |dataFiles[i]| >= HourSize + ExtSize
    ensures r.Some? ==> forall i :: 0 <= i < |dataFiles| ==>
      r.value[i] == convertTime(dataFiles[i][|dataFiles[i]| - 16..|dataFiles[i]| - 5])
  {
    r := ExtractTriggerTimes(convertTime, dataFiles, HourSize);
  }

  /** The last `|ext|` characters of a name, lower-cased, are `ext`. */
  predicate HasExtension(ext: string, name: string)
    requires |ext| <= |name|
  {
    ToLower(name[|name| - |ext|..]) == ext
  }

  /** The `remove_if` predicate, inverted: a name is kept when it has the
      extension. A name shorter than the extension makes `substr` throw. */
  function Keeps(ext: string): string -> bool
  {
    name => |ext| <= |name| && HasExtension(ext, name)
  }

  /** The filter is blind to ASCII case: two names that lower-case alike
      are kept or dropped together. */
  lemma KeepsIgnoresCase(ext: string, a: string, b: string)
    requires ToLower(a) == ToLower(b)
    ensures Keeps(ext)(a) == Keeps(ext)(b)
  {
    if |ext| <= |a| {
      ToLowerSuffix(a, |a| - |ext|);
      ToLowerSuffix(b, |b| - |ext|);
    }
  }

  /** Only the last four characters are compared, so the dot is never
      checked: any name ending in `json`, in any case, is kept, such as
      "notes.bjson" or "datajson". */
  lemma JsonSuffixKept(prefix: string, e: string)
    requires ToLower(e) == JsonType
    ensures Keeps(JsonType)(prefix + e)
  {
    var name := prefix + e;
    assert name[|name| - |JsonType|..] == e;
  }

  /** The extension filter over the listed files. */
  function ExtensionFilter(ext: string, files: seq<string>): (r: Option<seq<string>>)
    ensures r.None? <==> exists i :: 0 <= i < |files| && |files[i]| < |ext|
    ensures r.Some? ==> forall x :: x in r.value <==> x in files && HasExtension(ext, x)
  {
    if exists i :: 0 <= i < |files| && |files[i]| < |ext| then None
    else Some(Seqs.Filter(files, Keeps(ext)))
  }

  /** The kept files appear in the order of the listing. */
  lemma ExtensionFilterOrder(ext: string, files: seq<string>)
    requires ExtensionFilter(ext, files).Some?
    ensures Seqs.SubsequenceOf(ExtensionFilter(ext, files).value, files)
  {
    Seqs.FilterIsSubsequence(files, Keeps(ext));
  }

  /** The dictionary entries `checkFileNames` reads; `None` is a missing
      entry. */
  datatype Dictionary = Dictionary(dataFileType: Option<string>, dataFolder: Option<string>)

  /** The file system: whether a directory exists, and its files, sorted,
      without recursion. */
  datatype FileSystem = FileSystem(directoryExists: string -> bool, readFiles: string -> seq<string>)

  /** What `checkFileNames` returns and leaves in its `dataFiles`
      argument. */
  datatype Checked = Checked(ok: bool, dataFiles: seq<string>)

  /** `checkFileNames`; `None` where the extension filter throws. */
  function CheckFileNames(dict: Dictionary, fs: FileSystem, dataFiles: seq<string>): (r: Option<Checked>)
    ensures r.Some? && r.value.ok ==>
      && dict.dataFileType.Some? && ToLower(dict.dataFileType.value) == JsonType
      && dict.dataFolder.Some? && fs.directoryExists(dict.dataFolder.value)
      && r.value.dataFiles != []
      && Seqs.SubsequenceOf(r.value.dataFiles, fs.readFiles(dict.dataFolder.value))
      && forall i :: 0 <= i < |r.value.dataFiles| ==>
           |JsonType| <= |r.value.dataFiles[i]| && HasExtension(JsonType, r.value.dataFiles[i])
    ensures (|| ToLower(dict.dataFileType.GetOr("")) != JsonType
             || dict.dataFolder.None?
             || !fs.directoryExists(dict.dataFolder.value))
      ==> r == Some(Checked(false, dataFiles))
  {
    var fileType := ToLower(dict.dataFileType.GetOr(""));
    if fileType != JsonType then Some(Checked(false, dataFiles))
    else if dict.dataFolder.None? then Some(Checked(false, dataFiles))
    else if !fs.directoryExists(dict.dataFolder.value) then Some(Checked(false, dataFiles))
    else
      var listed := fs.readFiles(dict.dataFolder.value);
      match ExtensionFilter(fileType, listed)
      case None => None
      case Some(kept) =>
        Seqs.FilterIsSubsequence(listed, Keeps(fileType));
        assert forall i :: 0 <= i < |kept| ==> kept[i] in kept;
        Some(Checked(kept != [], kept))
  }

  /** The conditions under which the check succeeds, in the other
      direction: a `json` type (in any case), an existing folder and at
      least one file in it whose name ends in `json` in any case, with no
      name shorter than the type. */
  lemma CheckFileNamesSucceeds(dict: Dictionary, fs: FileSystem, dataFiles: seq<string>, f: string)
    requires dict.dataFileType.Some? && ToLower(dict.dataFileType.value) == JsonType
    requires dict.dataFolder.Some? && fs.directoryExists(dict.dataFolder.value)
    requires forall i :: 0 <= i < |fs.readFiles(dict.dataFolder.value)| ==> |fs.readFiles(dict.dataFolder.value)[i]| >= |JsonType|
    requires f in fs.readFiles(dict.dataFolder.value) && HasExtension(JsonType, f)
    ensures CheckFileNames(dict, fs, dataFiles) == Some(Checked(true, ExtensionFilter(JsonType, fs.readFiles(dict.dataFolder.value)).value))
  {
    var kept := ExtensionFilter(JsonType, fs.readFiles(dict.dataFolder.value)).value;
    assert f in kept;
  }

  /** A missing `DataFileType` entry is the empty type, which is not
      `json`. */
  lemma MissingTypeFails(dict: Dictionary, fs: FileSystem, dataFiles: seq<string>)
    requires dict.dataFileType.None?
    ensures CheckFileNames(dict, fs, dataFiles) == Some(Checked(false, dataFiles))
  {
  }
}

=== FILE: libm.dfy ===
/** The C math-library calls the error passes rely on, `sqrt` and `pow`,
    as function values. Floating-point rounding is not modelled: `Lawful`
    pins `sqrt` down to the exact real square root and the three exponents
    the passes use (2, 0.5 and 0.25) to the exact square, square root and
    fourth root. */
module Libm {

  datatype Libm = Libm(sqrt: real -> real, pow: (real, real) -> real)

  function Sq(x: real): real
  {
    x * x
  }

  function Fourth(y: real): real
  {
    Sq(Sq(y))
  }

  ghost predicate Lawful(m: Libm)
  {
    && (forall x :: m.pow(x, 2.0) == Sq(x))
    && (forall x :: 0.0 <= x ==> 0.0 <= m.sqrt(x) && Sq(m.sqrt(x)) == x)
    && (forall x :: 0.0 < x ==> m.pow(x, 0.5) == m.sqrt(x))
    && (forall x :: 0.0 < x ==> 0.0 <= m.pow(x, 0.25) && Fourth(m.pow(x, 0.25)) == x)
  }

  lemma Product(a: real, b: real)
    requires 0.0 < a && 0.0 < b
    ensures 0.0 < a * b
  {
  }

  /** Squaring is strictly increasing on the non-negative reals. */
  lemma SqStrict(a: real, b: real)
    requires 0.0 <= a && 0.0 <= b
    ensures a < b ==> Sq(a) < Sq(b)
  {
    if a < b {
      Product(b - a, b + a);
      assert (b - a) * (b + a) == b * b - a * a;
    }
  }

  lemma SqNonNegative(x: real)
    ensures 0.0 <= Sq(x)
  {
  }

  lemma SqEven(x: real)
    ensures Sq(x) == Sq(-x)
  {
  }

  /** A square vanishes exactly at zero. */
  lemma SqZeroIff(x: real)
    ensures Sq(x) == 0.0 <==> x == 0.0
  {
    assert Sq(0.0) == 0.0;
    if 0.0 < x {
      SqStrict(0.0, x);
    } else if x < 0.0 {
      SqStrict(0.0, -x);
      SqEven(x);
    }
  }

  /** Squaring is injective on the non-negative reals. */
  lemma SqInjective(a: real, b: real)
    requires 0.0 <= a && 0.0 <= b && Sq(a) == Sq(b)
    ensures a == b
  {
    SqStrict(a, b);
    SqStrict(b, a);
  }

  lemma FourthStrict(a: real, b: real)
    requires 0.0 <= a && 0.0 <= b
    ensures a < b ==> Fourth(a) < Fourth(b)
  {
    SqStrict(a, b);
    SqNonNegative(a);
    SqNonNegative(b);
    SqStrict(Sq(a), Sq(b));
  }

  /** `sqrt` vanishes exactly at zero. */
  lemma SqrtZeroIff(m: Libm, x: real)
    requires Lawful(m) && 0.0 <= x
    ensures m.sqrt(x) == 0.0 <==> x == 0.0
  {
    SqZeroIff(m.sqrt(x));
  }

  /** `sqrt` is strictly increasing on the non-negative reals. */
  lemma SqrtMonotone(m: Libm, x: real, y: real)
    requires Lawful(m) && 0.0 <= x < y
    ensures m.sqrt(x) < m.sqrt(y)
  {
    SqStrict(m.sqrt(y), m.sqrt(x));
  }

  /** The fourth root is strictly increasing on the positive reals. */
  lemma FourthRootMonotone(m: Libm, x: real, y: real)
    requires Lawful(m) && 0.0 < x < y
    ensures m.pow(x, 0.25) < m.pow(y, 0.25)
  {
    FourthStrict(m.pow(y, 0.25), m.pow(x, 0.25));
  }

  lemma FourthRootPositive(m: Libm, x: real)
    requires Lawful(m) && 0.0 < x
    ensures 0.0 < m.pow(x, 0.25)
  {
    var a := m.pow(x, 0.25);
    assert 0.0 <= a && Fourth(a) == x;
    assert Fourth(0.0) == 0.0;
    FourthStrict(0.0, a);
  }

  /** The square root of a perfect square is its non-negative base. */
  lemma SqrtOfSquare(m: Libm, r: real)
    requires Lawful(m) && 0.0 <= r
    ensures m.sqrt(Sq(r)) == r
  {
    SqNonNegative(r);
    SqInjective(m.sqrt(Sq(r)), r);
  }
}

=== FILE: mesh_generation.dfy ===
/** The mesh-generation task for rover surface models: where a product's
    outputs go (`site<SSS>/drive<DDDD>/` under the output path), the
    `filenames.txt` index of a drive folder, the texture name of a product,
    and the walk over the point-cloud grid that collects the points and
    their texture-pixel indices before triangulation. */
module MeshGeneration {
  import opened Wrappers
  import Seqs
  import opened Text
  import ImgReader

  // ---------------------------------------------------------------------
  // Names and paths

  /** The product name without directory and extension: everything from
      the last '.' on is dropped, then everything up to the last '/'. */
  function BaseName(path: string): (r: string)
    ensures '/' !in r
  {
    var noExt := match FindLastOf(path, {'.'}) case Some(d) => path[..d] case None => path;
    match FindLastOf(noExt, {'/'})
    case Some(s) => noExt[s + 1..]
    case None => noExt
  }

  /** `FindLastOf` finds a separator followed only by other characters. */
  lemma FindLastOfSeparator(a: string, c: char, b: string, cs: set<char>)
    requires c in cs && forall i :: 0 <= i < |b| ==> b[i] !in cs
    ensures FindLastOf(a + [c] + b, cs) == Some(|a|)
  {
    var p := a + [c];
    assert p[|p| - 1] == c;
    FindLastOfSkips(p, b, cs);
  }

  /** Characters outside the set appended at the end do not move the
      last separator. */
  lemma {:induction false} FindLastOfSkips(p: string, b: string, cs: set<char>)
    requires forall i :: 0 <= i < |b| ==> b[i] !in cs
    ensures FindLastOf(p + b, cs) == FindLastOf(p, cs)
  {
    if b == [] {
      assert p + b == p;
    } else {
      var s := p + b;
      assert s[|s| - 1] == b[|b| - 1];
      assert s[..|s| - 1] == p + b[..|b| - 1];
      FindLastOfSkips(p, b[..|b| - 1], cs);
    }
  }

  /** The base name of `dir/name.ext`, or of `name.ext`, is `name`. */
  lemma BaseNameOfPath(dir: string, name: string, ext: string)
    requires '/' !in name && '.' !in ext && '/' !in ext
    ensures BaseName(name + "." + ext) == name
    ensures BaseName(dir + "/" + name + "." + ext) == name
  {
    FindLastOfSeparator(name, '.', ext, {'.'});
    assert (name + "." + ext)[..|name|] == name;
    assert forall i :: 0 <= i < |name| ==> name[i] != '/';
    var p := dir + "/" + name;
    FindLastOfSeparator(p, '.', ext, {'.'});
    assert p + "." + ext == dir + "/" + name + "." + ext;
    assert (p + "." + ext)[..|p|] == p;
    FindLastOfSeparator(dir, '/', name, {'/'});
    assert p[|dir| + 1..] == name;
  }

  /** Characters that end the prefix before a site and drive number. */
  const Markers: set<char> := {'_', 'F'}

  /** `correctPath`: the seven characters after the last '_' or 'F' (from
      the start when there is neither) are a three-digit site and a drive;
      the result is `<output>site<SSS>/drive<rest>/`. Fewer than three
      characters there make the second `substr` throw. */
  function CorrectPath(filename: string, outputPath: string): (r: Option<string>)
  {
    var from := match FindLastOf(filename, Markers) case Some(p) => p + 1 case None => 0;
    var stripped := filename[from..if from + 7 <= |filename| then from + 7 else |filename|];
    if |stripped| < 3 then None
    else Some(outputPath + "site" + stripped[..3] + "/" + "drive" + stripped[3..] + "/")
  }

  /** The folder of a product named `<prefix><marker><SSS><DDDD><rest>`,
      with no marker in the digits or the rest, is
      `<output>site<SSS>/drive<DDDD>/`. */
  lemma CorrectPathOfName(prefix: string, marker: char, site: string, drive: string, rest: string, outputPath: string)
    requires marker in Markers && |site| == 3 && |drive| == 4
    requires forall i :: 0 <= i < |site + drive + rest| ==> (site + drive + rest)[i] !in Markers
    ensures CorrectPath(prefix + [marker] + site + drive + rest, outputPath)
      == Some(outputPath + "site" + site + "/" + "drive" + drive + "/")
  {
    var f := prefix + [marker] + site + drive + rest;
    assert f == prefix + [marker] + (site + drive + rest);
    FindLastOfSeparator(prefix, marker, site + drive + rest, Markers);
    var stripped := f[|prefix| + 1..|prefix| + 8];
    assert stripped == site + drive;
    assert stripped[..3] == site && stripped[3..] == drive;
  }

  /** The texture's name: the first "XYR" replaced by "RAS". Without an
      "XYR" the source's `npos + 3` wraps to 2, giving
      `name + "RAS" + name[2..]`, and a name shorter than two characters
      throws. */
  function TextureName(name: string): (r: Option<string>)
    ensures Find(name, "XYR").Some? ==> r.Some? && |r.value| == |name|
    ensures Find(name, "XYR").None? ==> (r.None? <==> |name| < 2)
  {
    match Find(name, "XYR")
    case Some(p) => Some(name[..p] + "RAS" + name[p + 3..])
    case None => if |name| < 2 then None else Some(name + "RAS" + name[2..])
  }

  /** Only the first "XYR" changes: it becomes "RAS" and every other
      character stays, so putting "XYR" back at that place restores the
      name. */
  lemma TextureNameReplaces(name: string)
    requires Find(name, "XYR").Some?
    ensures var p := Find(name, "XYR").value; var r := TextureName(name).value;
      && (forall i :: 0 <= i < p ==> !OccursAt(name, "XYR", i))
      && OccursAt(r, "RAS", p)
      && (forall i :: 0 <= i < |name| && !(p <= i < p + 3) ==> r[i] == name[i])
      && r[..p] + "XYR" + r[p + 3..] == name
  {
    ReplaceAt(name, Find(name, "XYR").value);
  }

  lemma ReplaceAt(name: string, p: nat)
    requires OccursAt(name, "XYR", p)
    ensures var r := name[..p] + "RAS" + name[p + 3..];
      && OccursAt(r, "RAS", p)
      && (forall i :: 0 <= i < |name| && !(p <= i < p + 3) ==> r[i] == name[i])
      && r[..p] + "XYR" + r[p + 3..] == name
  {
    var r := name[..p] + "RAS" + name[p + 3..];
    assert r[p..p + 3] == "RAS";
    assert r[..p] == name[..p];
    assert r[p + 3..] == name[p + 3..];
    SliceThree(name, p, p + 3);
  }

  lemma SliceThree(s: string, i: nat, j: nat)
    requires i <= j <= |s|
    ensures s == s[..i] + s[i..j] + s[j..]
  {
  }

  // ---------------------------------------------------------------------
  // filenames.txt

  /** `writeTxtFile`: the content of the drive folder's `filenames.txt`
      after the call, from its content before (`None`: no file). The name
      is appended as a new line unless some line already equals it. */
  function WriteTxtFile(content: Option<string>, filename: string): string
  {
    match content
    case Some(c) => if filename in Split(c, '\n') then c else c + filename + "\n"
    case None => filename + "\n"
  }

  /** A file whose last line is terminated. */
  predicate Terminated(c: string)
  {
    c == [] || c[|c| - 1] == '\n'
  }

  /** Without a terminated last line the write is not idempotent: the
      name is glued onto the last line, which then no longer equals it, so
      a second write appends it again ("abc" becomes "abcx\n", then
      "abcx\nx\n"). */
  lemma WriteTxtFileUnterminated(c: string, x: string)
    requires c != [] && '\n' !in c && '\n' !in x && x != c
    ensures WriteTxtFile(Some(c), x) == c + x + "\n"
    ensures WriteTxtFile(Some(WriteTxtFile(Some(c), x)), x) != WriteTxtFile(Some(c), x)
  {
    assert Split(c, '\n') == [c];
    var r := c + x + "\n";
    SplitAppendLine([], c + x, '\n');
    assert [] + (c + x) + ['\n'] == r;
    assert x != c + x by {
      assert |c + x| > |x|;
    }
    assert |WriteTxtFile(Some(r), x)| > |r|;
  }

  /** Writing a line-free name into a terminated file: the lines are the
      old ones plus the name if it was missing, the old content is a
      prefix, and a second write changes nothing. */
  lemma WriteTxtFileIdempotent(content: Option<string>, filename: string)
    requires '\n' !in filename
    requires content.Some? ==> Terminated(content.value)
    ensures var c := content.GetOr("");
      var r := WriteTxtFile(content, filename);
      && Split(r, '\n') == Split(c, '\n') + (if filename in Split(c, '\n') then [] else [filename])
      && c <= r
      && Terminated(r)
      && WriteTxtFile(Some(r), filename) == r
  {
    var c := content.GetOr("");
    var r := WriteTxtFile(content, filename);
    var ls := Split(c, '\n');
    if content.None? {
      assert ls == [];
    }
    if filename in ls {
      assert r == c;
    } else {
      assert r == c + filename + "\n";
      SplitAppendLine(c, filename, '\n');
      assert filename in Split(r, '\n') by {
        assert Split(r, '\n')[|ls|] == filename;
      }
    }
  }

  // ---------------------------------------------------------------------
  // The point-cloud grid

  datatype Point = Point(x: real, y: real, z: real)

  /** A point with the pixel `(i, k)` it came from: column `i`, line `k`. */
  datatype Pixel = Pixel(p: Point, i: int, k: int)

  /** The reader's zero vectors stand for missing data. */
  predicate IsOrigin(p: Point)
  {
    p.x == 0.0 && p.y == 0.0 && p.z == 0.0
  }

  /** The three bands hold at least `size` values each. */
  predicate Covers(xyz: seq<seq<real>>, size: nat)
  {
    |xyz| >= 3 && size <= |xyz[0]| && size <= |xyz[1]| && size <= |xyz[2]|
  }

  /** The point of value `t`: bands 1 and 0 swapped into `x` and `y`, and
      band 2 negated, to keep the frame right-handed with `z` up. */
  function PointAt(xyz: seq<seq<real>>, t: nat): Point
    requires Covers(xyz, t + 1)
  {
    Point(xyz[1][t], xyz[0][t], -xyz[2][t])
  }

  /** Every pixel in reading order: value `t` is column `t / lines`, line
      `t % lines`. */
  function Grid(xyz: seq<seq<real>>, cols: nat, lines: nat): (g: seq<Pixel>)
    requires Covers(xyz, cols * lines)
    ensures |g| == cols * lines
  {
    seq(cols * lines, t requires 0 <= t < cols * lines => Pixel(PointAt(xyz, t), t / lines, t % lines))
  }

  function NotOrigin(): Pixel -> bool
  {
    (px: Pixel) => !IsOrigin(px.p)
  }

  /** Pixels that go into the uv cloud: not at the origin, and not in the
      last column or the last line. */
  function Textured(cols: int, lines: int): Pixel -> bool
  {
    (px: Pixel) => !IsOrigin(px.p) && px.i < cols - 1 && px.k < lines - 1
  }

  function PointOf(px: Pixel): Point { px.p }

  /** Value `i * lines + k` is column `i`, line `k`. */
  lemma RowMajor(i: nat, k: nat, lines: nat)
    requires k < lines
    ensures (i * lines + k) / lines == i && (i * lines + k) % lines == k
  {
    var t := i * lines + k;
    var q, r := t / lines, t % lines;
    assert t == q * lines + r && 0 <= r < lines;
    if q < i {
      MulLess(q, i, lines);
    } else if i < q {
      MulLess(i, q, lines);
    }
  }

  lemma MulLess(a: nat, b: nat, n: nat)
    requires a < b
    ensures a * n + n <= b * n
  {
    assert a * n + n == (a + 1) * n;
  }

  /** Value `i * lines + k` of the grid is pixel `(i, k)`. */
  lemma GridAt(xyz: seq<seq<real>>, cols: nat, lines: nat, i: nat, k: nat)
    requires Covers(xyz, cols * lines) && i < cols && k < lines
    ensures i * lines + k < cols * lines
    ensures Grid(xyz, cols, lines)[i * lines + k] == Pixel(PointAt(xyz, i * lines + k), i, k)
  {
    MulLess(i, cols, lines);
    RowMajor(i, k, lines);
  }

  /** Every pixel of the grid has a column and line inside it. */
  lemma GridIndices(xyz: seq<seq<real>>, cols: nat, lines: nat, t: nat)
    requires Covers(xyz, cols * lines) && t < cols * lines
    ensures 0 <= Grid(xyz, cols, lines)[t].i && 0 <= Grid(xyz, cols, lines)[t].k
  {
  }

  /** The clouds hold what the walk keeps of the first `t` pixels. */
  ghost predicate Walked(g: seq<Pixel>, t: nat, cols: int, lines: int, cloud: seq<Point>, uvCloud: seq<Pixel>)
    requires t <= |g|
  {
    && cloud == Seqs.MapSeq(Seqs.Filter(g[..t], NotOrigin()), PointOf)
    && uvCloud == Seqs.Filter(g[..t], Textured(cols, lines))
  }

  /** One pixel of the walk: the clouds of the first `t + 1` pixels are
      those of the first `t`, plus the pixel where it qualifies. */
  lemma WalkStep(g: seq<Pixel>, t: nat, cols: int, lines: int, cloud: seq<Point>, uvCloud: seq<Pixel>)
    requires t < |g| && Walked(g, t, cols, lines, cloud, uvCloud)
    ensures Walked(g, t + 1, cols, lines,
      cloud + (if !IsOrigin(g[t].p) then [g[t].p] else []),
      uvCloud + (if Textured(cols, lines)(g[t]) then [g[t]] else []))
  {
    assert g[..t + 1] == g[..t] + [g[t]];
    Seqs.FilterSnoc(g[..t], g[t], NotOrigin());
    Seqs.FilterSnoc(g[..t], g[t], Textured(cols, lines));
    Seqs.MapConcat(Seqs.Filter(g[..t], NotOrigin()), if !IsOrigin(g[t].p) then [g[t]] else [], PointOf);
  }

  /** The inner loop of the walk: the lines of column `i`. */
  method WalkColumn(xyz: seq<seq<real>>, ghost g: seq<Pixel>, cols: int, lines: int, i: nat, cloud0: seq<Point>, uvCloud0: seq<Pixel>)
    returns (cloud: seq<Point>, uvCloud: seq<Pixel>)
    requires Covers(xyz, ImgReader.Clamp(cols) * ImgReader.Clamp(lines)) && g == Grid(xyz, ImgReader.Clamp(cols), ImgReader.Clamp(lines))
    requires i < ImgReader.Clamp(cols)
    requires i * ImgReader.Clamp(lines) + ImgReader.Clamp(lines) <= |g|
    requires Walked(g, i * ImgReader.Clamp(lines), cols, lines, cloud0, uvCloud0)
    ensures Walked(g, i * ImgReader.Clamp(lines) + ImgReader.Clamp(lines), cols, lines, cloud, uvCloud)
  {
    var nl := ImgReader.Clamp(lines);
    cloud, uvCloud := cloud0, uvCloud0;
    var t := i * nl;
    var k := 0;
    while k < nl
      invariant k <= nl && t == i * nl + k
      invariant Walked(g, t, cols, lines, cloud, uvCloud)
    {
      GridAt(xyz, ImgReader.Clamp(cols), nl, i, k);
      var px := Pixel(Point(xyz[1][t], xyz[0][t], -xyz[2][t]), i, k);
      WalkStep(g, t, cols, lines, cloud, uvCloud);
      if !IsOrigin(px.p) {
        if i < cols - 1 && k < lines - 1 {
          uvCloud := uvCloud + [px];
        }
        cloud := cloud + [px.p];
      }
      t := t + 1;
      k := k + 1;
    }
  }

  /** The grid walk of `generateMeshFromBinary`: the depth cloud gets every
      point off the origin and the uv cloud every such point away from the
      last column and line, both in reading order. A value the bands lack
      makes `at` throw. */
  method GridWalk(xyz: seq<seq<real>>, cols: int, lines: int) returns (r: Option<(seq<Point>, seq<Pixel>)>)
    ensures r.None? <==> !Covers(xyz, ImgReader.Clamp(cols) * ImgReader.Clamp(lines)) && ImgReader.Clamp(cols) * ImgReader.Clamp(lines) > 0
    ensures r.Some? && Covers(xyz, ImgReader.Clamp(cols) * ImgReader.Clamp(lines)) ==>
      var g := Grid(xyz, ImgReader.Clamp(cols), ImgReader.Clamp(lines));
      && r.value.0 == Seqs.MapSeq(Seqs.Filter(g, NotOrigin()), PointOf)
      && r.value.1 == Seqs.Filter(g, Textured(cols, lines))
    ensures r.Some? ==> Covers(xyz, ImgReader.Clamp(cols) * ImgReader.Clamp(lines)) || r.value == ([], [])
  {
    var nc, nl := ImgReader.Clamp(cols), ImgReader.Clamp(lines);
    var size := nc * nl;
    if size == 0 {
      if Covers(xyz, 0) {
        assert Grid(xyz, nc, nl) == [];
      }
      return Some(([], []));
    }
    if !Covers(xyz, size) {
      return None;
    }
    ghost var g := Grid(xyz, nc, nl);
    var cloud: seq<Point> := [];
    var uvCloud: seq<Pixel> := [];
    var i, done := 0, 0;
    while i < nc
      invariant i <= nc && done == i * nl <= |g|
      invariant Walked(g, done, cols, lines, cloud, uvCloud)
    {
      MulLess(i, nc, nl);
      cloud, uvCloud := WalkColumn(xyz, g, cols, lines, i, cloud, uvCloud);
      assert done + nl == (i + 1) * nl;
      i, done := i + 1, done + nl;
    }
    assert g[..done] == g;
    r := Some((cloud, uvCloud));
  }

  // ---------------------------------------------------------------------
  // Texture coordinates

  /** The constant shift of `u` that lines the texture up with the model. */
  const UShift: real := 0.33

  /** `u` of pixel line `k`: shifted and wrapped back by one when past 1. */
  function TexU(k: int, lines: int): real
    requires lines > 0
  {
    var u := UShift + (k as real) / (lines as real);
    if u <= 1.0 then u else u - 1.0
  }

  /** `v` of pixel column `i`. */
  function TexV(i: int, cols: int): real
    requires cols > 0
  {
    1.0 - (i as real) / (cols as real)
  }

  /** A pixel inside the grid maps into `(0, 1]` on both axes. */
  lemma TexCoordInUnitSquare(i: int, k: int, cols: int, lines: int)
    requires 0 <= i < cols && 0 <= k < lines
    ensures 0.0 < TexU(k, lines) <= 1.0
    ensures 0.0 < TexV(i, cols) <= 1.0
  {
    var fk := (k as real) / (lines as real);
    assert fk * (lines as real) == k as real;
    assert 0.0 <= fk < 1.0;
    var fi := (i as real) / (cols as real);
    assert fi * (cols as real) == i as real;
    assert 0.0 <= fi < 1.0;
  }

  /** Every pixel of the uv cloud lies inside the grid, so its texture
      coordinates lie in `(0, 1]`. */
  lemma UvCloudTexCoords(xyz: seq<seq<real>>, cols: int, lines: int, px: Pixel)
    requires Covers(xyz, ImgReader.Clamp(cols) * ImgReader.Clamp(lines))
    requires px in Seqs.Filter(Grid(xyz, ImgReader.Clamp(cols), ImgReader.Clamp(lines)), Textured(cols, lines))
    ensures 0 <= px.i < cols - 1 && 0 <= px.k < lines - 1
    ensures 0.0 < TexU(px.k, lines) <= 1.0 && 0.0 < TexV(px.i, cols) <= 1.0
  {
    var g := Grid(xyz, ImgReader.Clamp(cols), ImgReader.Clamp(lines));
    assert px in g && Textured(cols, lines)(px);
    var t :| 0 <= t < |g| && g[t] == px;
    GridIndices(xyz, ImgReader.Clamp(cols), ImgReader.Clamp(lines), t);
    TexCoordInUnitSquare(px.i, px.k, cols, lines);
  }
}

=== FILE: renderable_signals.dfy ===
/** The Deep Space Network signal renderable: which signals are active at
    the current time, and the vertex array drawn as `GL_LINES`. Every
    active signal is a line from the transmitting dish to the spacecraft,
    two vertices of ten floats each: position (3), colour (4), distance,
    time since the start of transmission, and transmission duration. */
module RenderableSignals {
  import Seqs

  /** The vertex layout (`_sizeThreeVal`, `_sizeFourVal`, `_sizeOneVal`). */
  const PositionSize: nat := 3
  const ColorSize: nat := 4
  const ScalarSize: nat := 1
  /** Floats per vertex. */
  const Stride: nat := PositionSize + ColorSize + 3 * ScalarSize
  /** Floats per signal: two vertices. */
  const SignalFloats: nat := 2 * Stride

  datatype Vec3 = Vec3(x: real, y: real, z: real)
  datatype Color = Color(r: real, g: real, b: real, a: real)

  datatype Signal = Signal(
    dishName: string, spacecraft: string, direction: string,
    startTransmission: real, endTransmission: real, lightTravelTime: real,
    timeSinceStart: real)

  /** What the scene supplies: the dish colour of a station, the station
      and spacecraft positions, and the distance between two nodes. */
  datatype Scene = Scene(
    stationColor: string -> Color,
    stationPosition: string -> Vec3,
    spacecraftPosition: string -> Vec3,
    distance: (string, string) -> real)

  // ---------------------------------------------------------------------
  // isSignalActive

  /** A signal is active from the start of its transmission until its last
      photon arrives: the end of transmission plus the light travel
      time. */
  predicate IsSignalActive(t: real, s: Signal)
  {
    s.startTransmission <= t && s.endTransmission + s.lightTravelTime >= t
  }

  function Active(t: real): Signal -> bool
  {
    s => IsSignalActive(t, s)
  }

  /** The active times of a signal form an interval, and it starts at the
      start of transmission. */
  lemma ActiveInterval(s: Signal, t1: real, t: real, t2: real)
    ensures IsSignalActive(t1, s) && IsSignalActive(t2, s) && t1 <= t <= t2 ==> IsSignalActive(t, s)
    ensures t < s.startTransmission ==> !IsSignalActive(t, s)
    ensures s.startTransmission <= s.endTransmission + s.lightTravelTime ==> IsSignalActive(s.startTransmission, s)
  {
  }

  // ---------------------------------------------------------------------
  // pushSignalDataToVertexArray

  datatype Vertex = Vertex(position: Vec3, color: Color, distance: real, timeSinceStart: real, duration: real)

  /** The ten floats of a vertex, in attribute order. */
  function Floats(v: Vertex): (r: seq<real>)
    ensures |r| == Stride
  {
    [v.position.x, v.position.y, v.position.z,
     v.color.r, v.color.g, v.color.b, v.color.a,
     v.distance, v.timeSinceStart, v.duration]
  }

  /** Vertex `j` of a flat array. */
  function VertexAt(arr: seq<real>, j: nat): Vertex
    requires j * Stride + Stride <= |arr|
  {
    var o := j * Stride;
    Vertex(Vec3(arr[o], arr[o + 1], arr[o + 2]),
           Color(arr[o + 3], arr[o + 4], arr[o + 5], arr[o + 6]),
           arr[o + 7], arr[o + 8], arr[o + 9])
  }

  /** `pushSignalDataToVertexArray`: the station vertex then the spacecraft
      vertex. The distance attribute is zero at the station for an uplink
      and at the spacecraft for a downlink. */
  function PushSignal(scene: Scene, arr: seq<real>, s: Signal): (r: seq<real>)
    ensures |r| == |arr| + SignalFloats
  {
    var color := scene.stationColor(s.dishName);
    var station := scene.stationPosition(s.dishName);
    var craft := scene.spacecraftPosition(s.spacecraft);
    var distance := scene.distance(s.dishName, s.spacecraft);
    var duration := s.endTransmission - s.startTransmission;
    arr
      + [station.x, station.y, station.z, color.r, color.g, color.b, color.a]
      + [if s.direction == "uplink" then 0.0 else distance]
      + [s.timeSinceStart, duration]
      + [craft.x, craft.y, craft.z, color.r, color.g, color.b, color.a]
      + [if s.direction == "downlink" then 0.0 else distance]
      + [s.timeSinceStart, duration]
  }

  /** Reading back the vertex just appended to an array of whole vertices
      gives the vertex. */
  lemma FloatsRoundTrip(arr: seq<real>, v: Vertex)
    requires |arr| % Stride == 0
    ensures var j := |arr| / Stride;
      j * Stride + Stride <= |arr + Floats(v)| && VertexAt(arr + Floats(v), j) == v
  {
    var j := |arr| / Stride;
    assert j * Stride == |arr|;
  }

  /** The distance attribute at the station end. */
  function StationDistance(scene: Scene, s: Signal): real
  {
    if s.direction == "uplink" then 0.0 else scene.distance(s.dishName, s.spacecraft)
  }

  /** The distance attribute at the spacecraft end. */
  function SpacecraftDistance(scene: Scene, s: Signal): real
  {
    if s.direction == "downlink" then 0.0 else scene.distance(s.dishName, s.spacecraft)
  }

  /** Reading the two appended vertices back: the station vertex at the
      dish position and the spacecraft vertex at the spacecraft position,
      sharing colour, time since start and duration; an uplink has
      distance zero at the station, a downlink at the spacecraft, and any
      other direction the full distance at both. */
  lemma PushSignalVertices(scene: Scene, arr: seq<real>, s: Signal)
    requires |arr| % Stride == 0
    ensures var r := PushSignal(scene, arr, s);
      var j := |arr| / Stride;
      var v1 := VertexAt(r, j);
      var v2 := VertexAt(r, j + 1);
      && r[..|arr|] == arr
      && v1.position == scene.stationPosition(s.dishName)
      && v2.position == scene.spacecraftPosition(s.spacecraft)
      && v1.color == v2.color == scene.stationColor(s.dishName)
      && v1.timeSinceStart == v2.timeSinceStart == s.timeSinceStart
      && v1.duration == v2.duration == s.endTransmission - s.startTransmission
      && v1.distance == StationDistance(scene, s)
      && v2.distance == SpacecraftDistance(scene, s)
      && (s.direction == "uplink" ==> v1.distance == 0.0 && v2.distance == scene.distance(s.dishName, s.spacecraft))
      && (s.direction == "downlink" ==> v2.distance == 0.0 && v1.distance == scene.distance(s.dishName, s.spacecraft))
      && (s.direction != "uplink" && s.direction != "downlink" ==>
            v1.distance == v2.distance == scene.distance(s.dishName, s.spacecraft))
  {
    var j := |arr| / Stride;
    assert j * Stride == |arr|;
    assert (j + 1) * Stride == |arr| + Stride;
    assert "uplink" != "downlink";
  }

  /** The station end of a signal's line. */
  function StationVertex(scene: Scene, s: Signal): Vertex
  {
    Vertex(scene.stationPosition(s.dishName), scene.stationColor(s.dishName),
           StationDistance(scene, s), s.timeSinceStart, s.endTransmission - s.startTransmission)
  }

  /** The spacecraft end of a signal's line. */
  function SpacecraftVertex(scene: Scene, s: Signal): Vertex
  {
    Vertex(scene.spacecraftPosition(s.spacecraft), scene.stationColor(s.dishName),
           SpacecraftDistance(scene, s), s.timeSinceStart, s.endTransmission - s.startTransmission)
  }

  /** Pushing a signal appends the floats of its station vertex, then those
      of its spacecraft vertex. */
  lemma PushSignalFloats(scene: Scene, arr: seq<real>, s: Signal)
    ensures PushSignal(scene, arr, s) == arr + Floats(StationVertex(scene, s)) + Floats(SpacecraftVertex(scene, s))
  {
  }

  // ---------------------------------------------------------------------
  // update

  /** The signal as pushed at time `t`: its time since start filled in. */
  function AtTime(s: Signal, t: real): Signal
  {
    s.(timeSinceStart := t - s.startTransmission)
  }

  /** The array for a list of signals pushed in order at time `t`. */
  function Pushed(scene: Scene, ss: seq<Signal>, t: real): (r: seq<real>)
    ensures |r| == SignalFloats * |ss|
  {
    if ss == [] then []
    else PushSignal(scene, Pushed(scene, ss[..|ss| - 1], t), AtTime(ss[|ss| - 1], t))
  }

  /** The loaded signal data: the time span of the loaded file, whether a
      reload was requested, and the signals. */
  datatype SignalData = SignalData(sequenceStartTime: real, sequenceEndTime: real, needsUpdate: bool, signals: seq<Signal>)

  /** The data is reloaded when the time leaves the loaded file's span
      `[start, end)` or a reload was requested. */
  predicate NeedsReload(t: real, data: SignalData)
  {
    !(data.sequenceStartTime <= t && t < data.sequenceEndTime) || data.needsUpdate
  }

  /** `update`: reloads the data when needed (`reload`, the file lookup
      and parsing, is a parameter), clears the array and pushes every
      active signal in order, stamped with its time since start; the line
      count is the number of vertices, the array size over the stride. */
  method Update(scene: Scene, t: real, data: SignalData, reload: real -> SignalData)
    returns (data': SignalData, arr: seq<real>, countLines: nat)
    ensures data' == if NeedsReload(t, data) then reload(t) else data
    ensures arr == Pushed(scene, Seqs.Filter(data'.signals, Active(t)), t)
    ensures |arr| == SignalFloats * Seqs.Count(data'.signals, Active(t))
    ensures countLines == 2 * Seqs.Count(data'.signals, Active(t))
  {
    data' := data;
    if !(t >= data.sequenceStartTime && t < data.sequenceEndTime) || data.needsUpdate {
      data' := reload(t);
    }
    arr := PushActive(scene, data'.signals, t);
    Seqs.FilterLength(data'.signals, Active(t));
    countLines := |arr| / Stride;
  }

  /** The loop of `update` over the signals. */
  method PushActive(scene: Scene, signals: seq<Signal>, t: real) returns (arr: seq<real>)
    ensures arr == Pushed(scene, Seqs.Filter(signals, Active(t)), t)
  {
    arr := [];
    var i := 0;
    while i < |signals|
      invariant i <= |signals|
      invariant arr == PushedUpTo(scene, signals, i, t)
    {
      var s := signals[i];
      if IsSignalActive(t, s) {
        arr := PushSignal(scene, arr, s.(timeSinceStart := t - s.startTransmission));
      }
      i := i + 1;
    }
    PushedUpToFilter(scene, signals, i, t);
    assert signals[..i] == signals;
  }

  /** The array after the loop has visited the first `i` signals. */
  function PushedUpTo(scene: Scene, signals: seq<Signal>, i: nat, t: real): seq<real>
    requires i <= |signals|
  {
    if i == 0 then []
    else
      var prev := PushedUpTo(scene, signals, i - 1, t);
      if IsSignalActive(t, signals[i - 1]) then PushSignal(scene, prev, AtTime(signals[i - 1], t)) else prev
  }

  /** The loop's array is the pushed list of the active signals among the
      first `i`. */
  lemma {:induction false} PushedUpToFilter(scene: Scene, signals: seq<Signal>, i: nat, t: real)
    requires i <= |signals|
    ensures PushedUpTo(scene, signals, i, t) == Pushed(scene, Seqs.Filter(signals[..i], Active(t)), t)
  {
    if i > 0 {
      PushedUpToFilter(scene, signals, i - 1, t);
      assert signals[..i] == signals[..i - 1] + [signals[i - 1]];
      PushedStep(scene, signals[..i - 1], signals[i - 1], t);
    }
  }

  lemma PushedStep(scene: Scene, ss: seq<Signal>, s: Signal, t: real)
    ensures Pushed(scene, Seqs.Filter(ss + [s], Active(t)), t)
      == if IsSignalActive(t, s) then PushSignal(scene, Pushed(scene, Seqs.Filter(ss, Active(t)), t), AtTime(s, t))
         else Pushed(scene, Seqs.Filter(ss, Active(t)), t)
  {
    Seqs.FilterSnoc(ss, s, Active(t));
    assert Active(t)(s) == IsSignalActive(t, s);
    if IsSignalActive(t, s) {
      var f := Seqs.Filter(ss, Active(t)) + [s];
      assert f[..|f| - 1] == Seqs.Filter(ss, Active(t)) && f[|f| - 1] == s;
      assert Seqs.Filter(ss + [s], Active(t)) == f;
      assert Pushed(scene, f, t) == PushSignal(scene, Pushed(scene, f[..|f| - 1], t), AtTime(f[|f| - 1], t));
    } else {
      assert Seqs.Filter(ss + [s], Active(t)) == Seqs.Filter(ss, Active(t));
    }
  }

  /** Pushing onto an array appends the signal's own twenty floats. */
  lemma PushSignalAppends(scene: Scene, arr: seq<real>, s: Signal)
    ensures PushSignal(scene, arr, s) == arr + PushSignal(scene, [], s)
  {
  }

  /** The array holds, for the `j`-th active signal, its two vertices at
      positions `2 j` and `2 j + 1`, stamped with the time since its
      start. */
  lemma {:induction false} PushedLayout(scene: Scene, ss: seq<Signal>, t: real, j: nat)
    requires j < |ss|
    ensures var arr := Pushed(scene, ss, t);
      (2 * j + 1) * Stride + Stride <= |arr|
      && arr[SignalFloats * j..SignalFloats * j + SignalFloats]
         == PushSignal(scene, [], AtTime(ss[j], t))
  {
    assert Stride == 10 && SignalFloats == 20;
    var arr := Pushed(scene, ss, t);
    var init := Pushed(scene, ss[..|ss| - 1], t);
    var tail := PushSignal(scene, [], AtTime(ss[|ss| - 1], t));
    assert arr == init + tail by {
      PushSignalAppends(scene, init, AtTime(ss[|ss| - 1], t));
    }
    assert |init| == SignalFloats * (|ss| - 1);
    var lo, hi := SignalFloats * j, SignalFloats * j + SignalFloats;
    if j < |ss| - 1 {
      PushedLayout(scene, ss[..|ss| - 1], t, j);
      assert ss[..|ss| - 1][j] == ss[j];
      assert hi <= |init|;
      assert (init + tail)[lo..hi] == init[lo..hi];
    } else {
      assert lo == |init|;
      assert (init + tail)[lo..hi] == tail;
    }
  }
}

=== FILE: renderable_site.dfy ===
/** The renderable that places a rover's traverse on Mars: the path and
    site coordinates taken from the `rover_locations` layer, the list of
    terrain textures, and the readiness of its terrain models. */
module RenderableSite {
  import opened Wrappers
  import Seqs
  import opened Text

  // ---------------------------------------------------------------------
  // extractCoordinates

  /** The fields of one `rover_locations` feature the renderable uses:
      `frame`, `plcl` (the latitude) and `longitude`. */
  datatype Location = Location(frame: string, lat: real, lon: real)

  datatype LatLon = LatLon(lat: real, lon: real)

  /** A location with a zero coordinate is left off the path. */
  predicate OnPath(l: Location)
  {
    l.lat != 0.0 && l.lon != 0.0
  }

  /** Path locations in the `SITE` frame also mark a site. */
  predicate IsSite(l: Location)
  {
    OnPath(l) && l.frame == "SITE"
  }

  function Coordinate(l: Location): LatLon
  {
    LatLon(l.lat, l.lon)
  }

  /** The path: coordinates of the located features, in layer order. */
  function Path(ls: seq<Location>): seq<LatLon>
  {
    Seqs.MapSeq(Seqs.Filter(ls, OnPath), Coordinate)
  }

  /** The sites: coordinates of the `SITE` features on the path. */
  function Sites(ls: seq<Location>): seq<LatLon>
  {
    Seqs.MapSeq(Seqs.Filter(ls, IsSite), Coordinate)
  }

  /** `extractCoordinates` over the features of the layer, starting from
      empty coordinate lists: the path, the sites, and whether the path is
      non-empty. */
  method ExtractCoordinates(features: seq<Location>) returns (path: seq<LatLon>, sites: seq<LatLon>, ready: bool)
    ensures path == Path(features) && sites == Sites(features)
    ensures ready <==> path != []
    ensures ready <==> exists i :: 0 <= i < |features| && OnPath(features[i])
  {
    path, sites := [], [];
    var i := 0;
    while i < |features|
      invariant i <= |features|
      invariant path == Path(features[..i]) && sites == Sites(features[..i])
    {
      var l := features[i];
      assert features[..i + 1] == features[..i] + [l];
      CoordinatesSnoc(features[..i], l, OnPath);
      CoordinatesSnoc(features[..i], l, IsSite);
      if l.lat != 0.0 && l.lon != 0.0 {
        path := path + [LatLon(l.lat, l.lon)];
        if l.frame == "SITE" {
          sites := sites + [LatLon(l.lat, l.lon)];
        }
      }
      i := i + 1;
    }
    assert features[..i] == features;
    ready := |path| != 0;
    PathNonEmpty(features);
  }

  /** Extending the features by one location extends the coordinates of
      those passing `p` by its coordinate when it passes. */
  lemma CoordinatesSnoc(ls: seq<Location>, l: Location, p: Location -> bool)
    ensures Seqs.MapSeq(Seqs.Filter(ls + [l], p), Coordinate)
      == Seqs.MapSeq(Seqs.Filter(ls, p), Coordinate) + (if p(l) then [Coordinate(l)] else [])
  {
    var extra := if p(l) then [l] else [];
    Seqs.FilterSnoc(ls, l, p);
    Seqs.MapConcat(Seqs.Filter(ls, p), extra, Coordinate);
    assert Seqs.MapSeq(extra, Coordinate) == if p(l) then [Coordinate(l)] else [];
  }

  /** The path is empty exactly when no location is on it. */
  lemma PathNonEmpty(ls: seq<Location>)
    ensures Path(ls) != [] <==> exists i :: 0 <= i < |ls| && OnPath(ls[i])
  {
    var f := Seqs.Filter(ls, OnPath);
    if f != [] {
      assert f[0] in f;
    } else {
      assert forall j :: 0 <= j < |ls| && OnPath(ls[j]) ==> ls[j] in f;
    }
  }

  /** The sites are the path's points in the `SITE` frame, so they form an
      order-preserving subsequence of the path. */
  lemma SitesOnPath(ls: seq<Location>)
    ensures Seqs.SubsequenceOf(Sites(ls), Path(ls))
  {
    Seqs.FilterOfFilter(ls, OnPath, IsSite);
    Seqs.FilterIsSubsequence(Seqs.Filter(ls, OnPath), IsSite);
    Seqs.MapSubsequence(Seqs.Filter(Seqs.Filter(ls, OnPath), IsSite), Seqs.Filter(ls, OnPath), Coordinate);
  }

  // ---------------------------------------------------------------------
  // loadTexturePaths

  /** `loadTexturePaths`: the lines of the texture list, or none when the
      file cannot be opened (`None`). */
  function LoadTexturePaths(content: Option<string>): (r: seq<string>)
    ensures forall i :: 0 <= i < |r| ==> '\n' !in r[i]
    ensures content.None? ==> r == []
  {
    match content
    case None => []
    case Some(c) => Split(c, '\n')
  }

  /** A list written one name per line reads back as the same names. */
  lemma LoadTexturePathsRoundTrip(names: seq<string>)
    requires forall i :: 0 <= i < |names| ==> '\n' !in names[i]
    ensures LoadTexturePaths(Some(if names == [] then "" else Join(names, '\n') + "\n")) == names
  {
    if names != [] {
      SplitJoin(names, '\n');
    }
  }

  // ---------------------------------------------------------------------
  // Terrain models

  /** A terrain model: its texture path, whether its shader program is
      built, and whether its texture is loaded. */
  datatype Model = Model(texturePath: string, hasProgram: bool, hasTexture: bool)

  predicate Textured(m: Model) { m.hasTexture }

  /** `isReady`: every model has its texture; true when there is no
      model. */
  method IsReady(models: seq<Model>) returns (ready: bool)
    ensures ready <==> forall i :: 0 <= i < |models| ==> models[i].hasTexture
    ensures ready <==> Seqs.Count(models, Textured) == |models|
  {
    ready := true;
    var i := 0;
    while i < |models|
      invariant i <= |models|
      invariant ready <==> forall j :: 0 <= j < i ==> models[j].hasTexture
    {
      if !models[i].hasTexture {
        ready := false;
      }
      i := i + 1;
    }
    Seqs.CountBounds(models, Textured);
    Seqs.FilterLength(models, Textured);
    if !ready {
      var j :| 0 <= j < |models| && !models[j].hasTexture;
      CountBelowLength(models, j);
    }
  }

  /** One untextured model keeps the count of textured ones below the
      number of models. */
  lemma {:induction false} CountBelowLength(models: seq<Model>, j: nat)
    requires j < |models| && !models[j].hasTexture
    ensures Seqs.Count(models, Textured) < |models|
  {
    assert models == models[..j] + [models[j]] + models[j + 1..];
    Seqs.CountConcat(models[..j] + [models[j]], models[j + 1..], Textured);
    Seqs.CountConcat(models[..j], [models[j]], Textured);
    Seqs.CountBounds(models[..j], Textured);
    Seqs.CountBounds(models[j + 1..], Textured);
    Seqs.CountBounds([models[j]], Textured);
  }

  /** `loadTexture`: every model's texture is (re)loaded from its path;
      `loads` tells which paths hold a readable texture. */
  function LoadTexture(models: seq<Model>, loads: string -> bool): (r: seq<Model>)
    ensures |r| == |models|
    ensures forall i :: 0 <= i < |models| ==>
      r[i] == models[i].(hasTexture := loads(models[i].texturePath))
  {
    Seqs.MapSeq(models, (m: Model) => m.(hasTexture := loads(m.texturePath)))
  }

  /** Loading again with the same outcomes changes nothing. */
  lemma LoadTextureTwice(models: seq<Model>, loads: string -> bool)
    ensures LoadTexture(LoadTexture(models, loads), loads) == LoadTexture(models, loads)
  {
  }

  /** After loading, every model is textured exactly when every path
      loads; paths, programs and the number of models are kept. */
  lemma LoadTextureReady(models: seq<Model>, loads: string -> bool)
    ensures var r := LoadTexture(models, loads);
      && (Seqs.Count(r, Textured) == |r| <==> forall i :: 0 <= i < |models| ==> loads(models[i].texturePath))
      && forall i :: 0 <= i < |models| ==> r[i].texturePath == models[i].texturePath && r[i].hasProgram == models[i].hasProgram
  {
    var r := LoadTexture(models, loads);
    Seqs.CountBounds(r, Textured);
    if !forall i :: 0 <= i < |models| ==> loads(models[i].texturePath) {
      var j :| 0 <= j < |models| && !loads(models[j].texturePath);
      CountBelowLength(r, j);
    }
  }

  /** `initialize` after the path's own initialisation: the programs of
      models without one are built (`buildSucceeds`), failing at the first
      build that fails; then the textures are loaded and the result is
      whether every model got one. */
  method Initialize(models: seq<Model>, buildSucceeds: bool, loads: string -> bool)
    returns (ok: bool, models': seq<Model>)
    ensures ok <==>
      && (buildSucceeds || forall i :: 0 <= i < |models| ==> models[i].hasProgram)
      && forall i :: 0 <= i < |models| ==> loads(models[i].texturePath)
    ensures ok ==> |models'| == |models| && forall i :: 0 <= i < |models| ==>
      models'[i] == Model(models[i].texturePath, true, true)
  {
    models' := models;
    var i := 0;
    while i < |models|
      invariant i <= |models| && |models'| == |models|
      invariant forall j :: 0 <= j < |models| ==> models'[j].texturePath == models[j].texturePath
      invariant forall j :: 0 <= j < i ==> models'[j].hasProgram
      invariant forall j :: i <= j < |models| ==> models'[j].hasProgram == models[j].hasProgram
      invariant forall j :: 0 <= j < i ==> buildSucceeds || models[j].hasProgram
    {
      if !models'[i].hasProgram {
        if !buildSucceeds {
          return false, models';
        }
        models' := models'[i := models'[i].(hasProgram := true)];
      }
      i := i + 1;
    }
    models' := LoadTexture(models', loads);
    ok := IsReady(models');
  }
}

=== FILE: rover_path.dfy ===
/** The rover path reader: turns the features of the rover-location shape
    file into subsites, and pairs the subsites that have a model folder on
    disk with the file names listed there. */
module RoverPath {
  import opened Wrappers
  import Seqs
  import opened Text

  datatype LatLon = LatLon(lat: real, lon: real)

  /** The fields of one shape-file feature the reader uses: "frame",
      "site", "drive", "plcl" and "longitude". */
  datatype Feature = Feature(frame: string, site: string, drive: string, lat: real, lon: real)

  /** A recorded rover position. `siteCoord` is `None` while no SITE
      feature has been seen, where the source copies uninitialised
      doubles. */
  datatype Subsite = Subsite(
    site: string, drive: string, lat: real, lon: real, frame: string,
    siteCoord: Option<LatLon>, fileNames: seq<string>)

  // ---------------------------------------------------------------------
  // convertString

  /** The zero padding `convertString` applies to an already parsed
      number. */
  function Pad(k: int, kind: string): string
  {
    if kind == "site" then
      if k < 10 then "00" + IntToString(k)
      else if k < 100 then "0" + IntToString(k)
      else ""
    else if kind == "drive" then
      if k < 10 then "000" + IntToString(k)
      else if k < 100 then "00" + IntToString(k)
      else if k < 1000 then "0" + IntToString(k)
      else IntToString(k)
    else ""
  }

  /** `convertString(s, kind)`: parse with `std::stoi` (`None` where it
      throws) and zero-pad to the folder naming of sites and drives. */
  function ConvertString(s: string, kind: string): (r: Option<string>)
    ensures r.Some? <==> Stoi(s).Some?
  {
    match Stoi(s)
    case None => None
    case Some(k) => Some(Pad(k, kind))
  }

  /** Padding a site below 100 or any non-negative drive gives a string
      of digits of the folder width that parses back to the number. */
  lemma PadDigits(k: int, kind: string)
    requires 0 <= k <= IntMax
    requires (kind == "site" && k < 100) || kind == "drive"
    ensures Stoi(Pad(k, kind)) == Some(k)
    ensures forall i :: 0 <= i < |Pad(k, kind)| ==> IsDigit(Pad(k, kind)[i])
    ensures kind == "site" ==> |Pad(k, kind)| == 3
    ensures kind == "drive" && k < 1000 ==> |Pad(k, kind)| == 4
    ensures kind == "drive" && 1000 <= k ==> Pad(k, kind) == NatToString(k)
  {
    NatToStringLength(k);
    var z: nat := if kind == "site" then 3 - |NatToString(k)|
                  else if k < 1000 then 4 - |NatToString(k)| else 0;
    assert Pad(k, kind) == Zeros(z) + NatToString(k) by {
      assert Zeros(0) == "";
      assert Zeros(1) == "0";
      assert Zeros(2) == "00";
      assert Zeros(3) == "000";
    }
    StoiZeroPadded(z, k);
    ZerosValue(z, NatToString(k));
  }

  /** A converted site below 100 or converted non-negative drive is a
      fixed point of the conversion, which is why converting a second time
      (as the model-folder lookup does) is harmless for them. */
  lemma ConvertIdempotent(s: string, kind: string)
    requires Stoi(s).Some? && 0 <= Stoi(s).value
    requires (kind == "site" && Stoi(s).value < 100) || kind == "drive"
    ensures ConvertString(ConvertString(s, kind).value, kind) == ConvertString(s, kind)
  {
    PadDigits(Stoi(s).value, kind);
  }

  /** Any kind other than "site" and "drive" converts to the empty
      string. */
  lemma ConvertOtherKind(s: string, kind: string)
    requires kind != "site" && kind != "drive" && Stoi(s).Some?
    ensures ConvertString(s, kind) == Some("")
  {
  }

  /** A site number of 100 or more converts to the empty string, and
      converting that again throws. */
  lemma SiteOverflow(s: string)
    requires Stoi(s).Some? && 100 <= Stoi(s).value
    ensures ConvertString(s, "site") == Some("")
    ensures ConvertString("", "site") == None
  {
  }

  /** A negative drive is padded around its sign: drive `-5` becomes
      "000-5". */
  lemma NegativeDrivePadded(k: int)
    requires IntMin <= k < 0
    ensures ConvertString(IntToString(k), "drive") == Some("000-" + NatToString(-k))
  {
    StoiOfInt(k);
    PadNegativeDrive(k);
  }

  /** The drive padding of a negative number: three zeros, then the
      sign. */
  lemma PadNegativeDrive(k: int)
    requires k < 0
    ensures Pad(k, "drive") == "000-" + NatToString(-k)
  {
    var n := NatToString(-k);
    assert "drive" != "site" by {
      assert "drive"[0] != "site"[0];
    }
    assert Pad(k, "drive") == "000" + ("-" + n);
    assert "000" + ("-" + n) == "000-" + n;
  }

  /** Converting a padded negative drive again reads only its leading
      zeros, so the conversion is not idempotent there: "000-5" becomes
      "0000". */
  lemma NegativeDriveNotIdempotent(ds: string)
    ensures ConvertString("000-" + ds, "drive") == Some("0000")
  {
    var s := "000-" + ds;
    assert Stoi(s) == Some(0) by {
      assert SkipSpace(s) == s by {
        assert !IsSpace(s[0]);
      }
      assert s[0] == '0';
      assert DigitPrefix(s) == "000" by {
        var s1, s2, s3 := s[1..], s[2..], s[3..];
        assert s3 == "-" + ds && s3[0] == '-';
        assert DigitPrefix(s3) == [];
        assert s2[0] == '0' && s2[1..] == s3;
        assert DigitPrefix(s2) == "0";
        assert s1[0] == '0' && s1[1..] == s2;
        assert DigitPrefix(s1) == "00";
        assert DigitPrefix(s) == "000";
      }
      assert DigitsValue("000") == 0 by {
        assert "000"[..2] == "00";
        assert "00"[..1] == "0";
        assert "0"[..0] == "";
      }
      assert ParseDigits(s, false) == Some(0);
    }
    assert "drive" != "site" by {
      assert "drive"[0] != "site"[0];
    }
    assert IntToString(0) == "0" by {
      assert DigitChar(0) == '0';
    }
    assert Pad(0, "drive") == "000" + "0";
    assert "000" + "0" == "0000";
    assert ConvertString(s, "drive") == Some(Pad(0, "drive"));
  }

  // ---------------------------------------------------------------------
  // extractAllSubsites

  /** `GetFieldAsDouble` yields 0 for an empty field; only features with
      both coordinates are used. */
  predicate Visible(f: Feature)
  {
    f.lat != 0.0 && f.lon != 0.0
  }

  /** Visible features become subsites, except the SITE rows, whose drive
      is "-1". */
  predicate Recorded(f: Feature)
  {
    Visible(f) && f.drive != "-1"
  }

  predicate IsSiteRow(f: Feature)
  {
    Visible(f) && f.frame == "SITE"
  }

  /** Both number fields survive `std::stoi`. */
  predicate Converts(f: Feature)
  {
    Stoi(f.site).Some? && Stoi(f.drive).Some?
  }

  ghost predicate AllConvert(fs: seq<Feature>)
  {
    forall i :: 0 <= i < |fs| && Visible(fs[i]) ==> Converts(fs[i])
  }

  /** Coordinates of the last SITE row of `fs`. */
  function LastSite(fs: seq<Feature>): (r: Option<LatLon>)
    ensures r.None? <==> forall i :: 0 <= i < |fs| ==> !IsSiteRow(fs[i])
    ensures r.Some? ==> exists i :: 0 <= i < |fs| && IsSiteRow(fs[i]) && r.value == LatLon(fs[i].lat, fs[i].lon)
                          && forall k :: i < k < |fs| ==> !IsSiteRow(fs[k])
  {
    if fs == [] then None
    else
      var f := fs[|fs| - 1];
      if IsSiteRow(f) then Some(LatLon(f.lat, f.lon))
      else
        var r := LastSite(fs[..|fs| - 1]);
        assert forall i :: 0 <= i < |fs| - 1 ==> fs[..|fs| - 1][i] == fs[i];
        r
  }

  function ToSubsite(f: Feature, coord: Option<LatLon>): Subsite
    requires Converts(f)
  {
    Subsite(ConvertString(f.site, "site").value, ConvertString(f.drive, "drive").value,
            f.lat, f.lon, f.frame, coord, [])
  }

  /** The subsites the features describe, each with the coordinates of
      the last SITE row up to and including it. */
  function Recordings(fs: seq<Feature>): seq<Subsite>
    requires AllConvert(fs)
  {
    if fs == [] then []
    else
      var init, f := fs[..|fs| - 1], fs[|fs| - 1];
      assert forall i :: 0 <= i < |init| ==> init[i] == fs[i];
      Recordings(init) + (if Recorded(f) then [ToSubsite(f, LastSite(fs))] else [])
  }

  function Position(s: Subsite): LatLon { LatLon(s.lat, s.lon) }
  function FeaturePosition(f: Feature): LatLon { LatLon(f.lat, f.lon) }

  /** The subsites are the recorded features, in order: same positions,
      one per recorded feature. */
  lemma {:induction false} RecordingsFollowFeatures(fs: seq<Feature>)
    requires AllConvert(fs)
    ensures Seqs.MapSeq(Recordings(fs), Position) == Seqs.MapSeq(Seqs.Filter(fs, Recorded), FeaturePosition)
    ensures |Recordings(fs)| == Seqs.Count(fs, Recorded)
  {
    if fs != [] {
      var init, f := fs[..|fs| - 1], fs[|fs| - 1];
      assert fs == init + [f];
      assert AllConvert(init) by {
        assert forall i :: 0 <= i < |init| ==> init[i] == fs[i];
      }
      RecordingsFollowFeatures(init);
      FollowStep(init, f);
    }
    Seqs.FilterLength(fs, Recorded);
  }

  /** One more feature keeps the positions of the subsites and of the
      recorded features equal. */
  lemma FollowStep(init: seq<Feature>, f: Feature)
    requires AllConvert(init + [f]) && AllConvert(init)
    requires Seqs.MapSeq(Recordings(init), Position) == Seqs.MapSeq(Seqs.Filter(init, Recorded), FeaturePosition)
    ensures Seqs.MapSeq(Recordings(init + [f]), Position) == Seqs.MapSeq(Seqs.Filter(init + [f], Recorded), FeaturePosition)
  {
    var fs := init + [f];
    assert fs[..|fs| - 1] == init && fs[|fs| - 1] == f;
    Seqs.FilterSnoc(init, f, Recorded);
    var extra := if Recorded(f) then [ToSubsite(f, LastSite(fs))] else [];
    assert Recordings(fs) == Recordings(init) + extra;
    PositionsGrow(Recordings(init), extra, Seqs.Filter(init, Recorded), if Recorded(f) then [f] else []);
  }

  /** Appending a subsite at the position of an appended feature keeps
      the positions of the two lists equal. */
  lemma PositionsGrow(ss: seq<Subsite>, extra: seq<Subsite>, gs: seq<Feature>, more: seq<Feature>)
    requires Seqs.MapSeq(ss, Position) == Seqs.MapSeq(gs, FeaturePosition)
    requires |extra| == |more| <= 1
    requires forall i :: 0 <= i < |extra| ==> Position(extra[i]) == FeaturePosition(more[i])
    ensures Seqs.MapSeq(ss + extra, Position) == Seqs.MapSeq(gs + more, FeaturePosition)
  {
    Seqs.MapConcat(ss, extra, Position);
    Seqs.MapConcat(gs, more, FeaturePosition);
  }

  /** How the reference definitions grow by one feature. */
  lemma RecordingsStep(fs: seq<Feature>, i: nat)
    requires i < |fs| && AllConvert(fs[..i])
    ensures AllConvert(fs[..i + 1]) <==> !Visible(fs[i]) || Converts(fs[i])
    ensures LastSite(fs[..i + 1]) ==
      if IsSiteRow(fs[i]) then Some(LatLon(fs[i].lat, fs[i].lon)) else LastSite(fs[..i])
    ensures AllConvert(fs[..i + 1]) ==>
      Recordings(fs[..i + 1]) ==
        Recordings(fs[..i]) + (if Recorded(fs[i]) then [ToSubsite(fs[i], LastSite(fs[..i + 1]))] else [])
  {
    assert fs[..i + 1][..i] == fs[..i];
    assert fs[..i + 1][i] == fs[i];
  }

  /** The dictionary entry and the file behind it: the `RoverLocationPath`
      value (`None` when the key is missing), whether a file at a path
      opens, and the features of the shape file once it is open. */
  datatype LocationFile = LocationFile(path: Option<string>, opens: string -> bool, features: seq<Feature>)

  /** `extractAllSubsites`: `None` where it throws, that is when the
      `RoverLocationPath` key is missing (`RuntimeError`), when the file
      does not open (`FileNotFoundError`), or when a `std::stoi` of a
      visible feature throws. */
  method ExtractAllSubsites(file: LocationFile) returns (r: Option<seq<Subsite>>)
    ensures r.None? <==> file.path.None? || !file.opens(file.path.value) || !AllConvert(file.features)
    ensures r.Some? ==> AllConvert(file.features) && r.value == Recordings(file.features)
  {
    if file.path.None? || !file.opens(file.path.value) {
      return None;
    }
    r := RecordSubsites(file.features);
  }

  /** The feature loop of `extractAllSubsites`: `None` where a
      `std::stoi` of a visible feature throws. */
  method RecordSubsites(features: seq<Feature>) returns (r: Option<seq<Subsite>>)
    ensures r.None? <==> !AllConvert(features)
    ensures r.Some? ==> AllConvert(features) && r.value == Recordings(features)
  {
    var siteCoord: Option<LatLon> := None;
    var subsites: seq<Subsite> := [];
    var i := 0;
    while i < |features|
      invariant i <= |features|
      invariant AllConvert(features[..i])
      invariant siteCoord == LastSite(features[..i])
      invariant subsites == Recordings(features[..i])
    {
      var f := features[i];
      RecordingsStep(features, i);
      if f.lat != 0.0 && f.lon != 0.0 {
        if f.frame == "SITE" {
          siteCoord := Some(LatLon(f.lat, f.lon));
        }
        var site := ConvertString(f.site, "site");
        var drive := ConvertString(f.drive, "drive");
        if site.None? || drive.None? {
          return None;
        }
        if f.drive != "-1" {
          subsites := subsites + [Subsite(site.value, drive.value, f.lat, f.lon, f.frame, siteCoord, [])];
        }
      }
      i := i + 1;
    }
    assert features[..i] == features;
    r := Some(subsites);
  }

  // ---------------------------------------------------------------------
  // extractSubsitesWithModels

  /** What the model lookup sees of the disk: whether a folder exists and
      the content of a text file (`None` when it cannot be opened). */
  datatype Disk = Disk(dirExists: string -> bool, readFile: string -> Option<string>)

  /** `extractFileNames`: the lines of the file, as `std::getline` reads
      them; none when the file cannot be opened. */
  function FileNames(content: Option<string>): (r: seq<string>)
    ensures forall i :: 0 <= i < |r| ==> '\n' !in r[i]
  {
    match content
    case None => []
    case Some(c) => Split(c, '\n')
  }

  /** A file written one name per line reads back as those names. */
  lemma FileNamesRoundTrip(names: seq<string>)
    requires names != [] && forall i :: 0 <= i < |names| ==> '\n' !in names[i]
    ensures FileNames(Some(Join(names, '\n') + "\n")) == names
  {
    SplitJoin(names, '\n');
  }

  datatype SiteDrive = SiteDrive(site: string, drive: string)

  function Key(s: Subsite): SiteDrive { SiteDrive(s.site, s.drive) }

  function Keys(ss: seq<Subsite>): seq<SiteDrive> { Seqs.MapSeq(ss, Key) }

  /** The stored site and drive strings survive a second conversion. */
  predicate Reconverts(s: Subsite)
  {
    Stoi(s.site).Some? && Stoi(s.drive).Some?
  }

  ghost predicate AllReconvert(ss: seq<Subsite>)
  {
    forall i :: 0 <= i < |ss| ==> Reconverts(ss[i])
  }

  /** `<ModelPath>/level1/site<site>/drive<drive>`. */
  function DriveFolder(modelPath: string, s: Subsite): string
    requires Reconverts(s)
  {
    modelPath + "/level1/" + "site" + ConvertString(s.site, "site").value
      + "/" + "drive" + ConvertString(s.drive, "drive").value
  }

  predicate HasModels(modelPath: string, disk: Disk, s: Subsite)
  {
    Reconverts(s) && disk.dirExists(DriveFolder(modelPath, s))
  }

  /** The subsite with the file names listed in its drive folder. */
  function WithNames(modelPath: string, disk: Disk, s: Subsite): Subsite
    requires Reconverts(s)
  {
    s.(fileNames := FileNames(disk.readFile(DriveFolder(modelPath, s) + "/filenames.txt")))
  }

  /** Which subsites have models, and what a kept subsite becomes. */
  datatype Lookup = Lookup(has: Subsite -> bool, named: Subsite -> Subsite)

  function ModelLookup(modelPath: string, disk: Disk): Lookup
  {
    Lookup(
      s => HasModels(modelPath, disk, s),
      s => if Reconverts(s) then WithNames(modelPath, disk, s) else s)
  }

  function Matches(lk: Lookup, key: SiteDrive): Subsite -> bool
  {
    s => lk.has(s) && Key(s) == key
  }

  /** The first index of `all` holding a subsite with models and key
      `key`, or `|all|`. */
  function FirstWith(lk: Lookup, all: seq<Subsite>, key: SiteDrive): (i: nat)
    ensures i <= |all|
    ensures i < |all| ==> lk.has(all[i]) && Key(all[i]) == key
    ensures forall k :: 0 <= k < i ==> !(lk.has(all[k]) && Key(all[k]) == key)
  {
    Seqs.FirstIndex(all, Matches(lk, key))
  }

  /** `out` keeps, in order of first appearance, the first subsite of
      `all` for every site/drive pair that has models, as `named` makes
      it. */
  ghost predicate KeepsFirst(lk: Lookup, all: seq<Subsite>, out: seq<Subsite>)
  {
    && (forall j, k :: 0 <= j < k < |out| ==> Key(out[j]) != Key(out[k]))
    && (forall j :: 0 <= j < |out| ==>
          var i := FirstWith(lk, all, Key(out[j]));
          i < |all| && out[j] == lk.named(all[i]))
    && (forall j, k :: 0 <= j < k < |out| ==>
          FirstWith(lk, all, Key(out[j])) < FirstWith(lk, all, Key(out[k])))
    && (forall i :: 0 <= i < |all| && lk.has(all[i]) ==> Key(all[i]) in Keys(out))
  }

  /** Appending a subsite does not move the first index of a key that
      is already kept. */
  lemma FirstKeptStable(lk: Lookup, all: seq<Subsite>, out: seq<Subsite>, s: Subsite)
    requires KeepsFirst(lk, all, out)
    ensures forall j :: 0 <= j < |out| ==> FirstWith(lk, all + [s], Key(out[j])) == FirstWith(lk, all, Key(out[j]))
  {
    forall j | 0 <= j < |out|
      ensures FirstWith(lk, all + [s], Key(out[j])) == FirstWith(lk, all, Key(out[j]))
    {
      Seqs.FirstIndexSnoc(all, s, Matches(lk, Key(out[j])));
    }
  }

  /** A subsite without models, or with a pair already kept, is skipped. */
  lemma KeepStepSkip(lk: Lookup, all: seq<Subsite>, out: seq<Subsite>, s: Subsite)
    requires KeepsFirst(lk, all, out)
    requires !lk.has(s) || Key(s) in Keys(out)
    ensures KeepsFirst(lk, all + [s], out)
  {
    FirstKeptStable(lk, all, out, s);
    assert forall i :: 0 <= i < |all| ==> (all + [s])[i] == all[i];
  }

  /** A subsite with models and a new pair is kept. */
  lemma KeepStepAdd(lk: Lookup, all: seq<Subsite>, out: seq<Subsite>, s: Subsite)
    requires KeepsFirst(lk, all, out)
    requires lk.has(s) && Key(s) !in Keys(out) && Key(lk.named(s)) == Key(s)
    ensures KeepsFirst(lk, all + [s], out + [lk.named(s)])
  {
    var all', out' := all + [s], out + [lk.named(s)];
    var n := |out|;
    FirstKeptStable(lk, all, out, s);
    Seqs.FirstIndexSnoc(all, s, Matches(lk, Key(s)));
    assert FirstWith(lk, all', Key(s)) == |all|;
    assert forall i :: 0 <= i < |all| ==> all'[i] == all[i];
    assert forall j :: 0 <= j < n ==> out'[j] == out[j];
    forall j, k | 0 <= j < k < |out'|
      ensures Key(out'[j]) != Key(out'[k])
    {
      if k == n {
        assert Keys(out)[j] == Key(out[j]);
      }
    }
    assert Keys(out') == Keys(out) + [Key(s)];
  }

  method ContainsKey(ss: seq<Subsite>, key: SiteDrive) returns (found: bool)
    ensures found <==> key in Keys(ss)
  {
    found := false;
    var t := 0;
    while t < |ss|
      invariant t <= |ss|
      invariant key !in Keys(ss[..t])
    {
      assert Keys(ss[..t + 1]) == Keys(ss[..t]) + [Key(ss[t])];
      if Key(ss[t]) == key {
        return true;
      }
      t := t + 1;
    }
    assert ss[..t] == ss;
  }

  /** `extractSubsitesWithModels`: `None` where it throws, that is when
      the `RoverLocationPath` or the `ModelPath` key is missing, when the
      location file does not open, or when a `std::stoi` throws. A
      `filenames.txt` that does not open gives no file names, not a
      failure. */
  method ExtractSubsitesWithModels(file: LocationFile, modelPath: Option<string>, disk: Disk)
    returns (r: Option<seq<Subsite>>)
    ensures r.None? <==>
      || file.path.None? || modelPath.None? || !file.opens(file.path.value)
      || !AllConvert(file.features) || !AllReconvert(Recordings(file.features))
    ensures r.Some? ==>
      && AllConvert(file.features)
      && AllReconvert(Recordings(file.features))
      && KeepsFirst(ModelLookup(modelPath.value, disk), Recordings(file.features), r.value)
  {
    if file.path.None? || modelPath.None? {
      return None;
    }
    var all := ExtractAllSubsites(file);
    if all.None? {
      return None;
    }
    r := KeepWithModels(all.value, modelPath.value, disk);
  }

  /** The subsite loop of `extractSubsitesWithModels`: `None` where
      re-converting a recorded site or drive throws. */
  method KeepWithModels(subs: seq<Subsite>, path: string, disk: Disk) returns (r: Option<seq<Subsite>>)
    ensures r.None? <==> !AllReconvert(subs)
    ensures r.Some? ==> AllReconvert(subs) && KeepsFirst(ModelLookup(path, disk), subs, r.value)
  {
    ghost var lk := ModelLookup(path, disk);
    var out: seq<Subsite> := [];
    var i := 0;
    while i < |subs|
      invariant i <= |subs|
      invariant AllReconvert(subs[..i])
      invariant KeepsFirst(lk, subs[..i], out)
    {
      var s := subs[i];
      assert subs[..i + 1] == subs[..i] + [s];
      var site := ConvertString(s.site, "site");
      var drive := ConvertString(s.drive, "drive");
      if site.None? || drive.None? {
        return None;
      }
      var folder := path + "/level1/" + "site" + site.value + "/" + "drive" + drive.value;
      if disk.dirExists(folder) {
        var modelExists := ContainsKey(out, Key(s));
        if !modelExists {
          KeepStepAdd(lk, subs[..i], out, s);
          var names := FileNames(disk.readFile(folder + "/filenames.txt"));
          out := out + [s.(fileNames := names)];
        } else {
          KeepStepSkip(lk, subs[..i], out, s);
        }
      } else {
        KeepStepSkip(lk, subs[..i], out, s);
      }
      i := i + 1;
    }
    assert subs[..i] == subs;
    r := Some(out);
  }

}

=== FILE: sand_tsp.dfy ===
/** The spatial and temporal error passes of the sand-volume TSP (time
    space partitioning tree). Each pass reads the bricks of a memory-mapped
    volume file, gives every tree node a raw error (or the leaf sentinel),
    normalises it with a `pow`, stores it bit-cast into the node's slot of
    the `data_` array and reports min, max and median of the normalised
    errors. */
module SandTsp {
  import opened Wrappers
  import Seqs
  import Stats
  import opened Libm

  /** Layout of a node's entry in the tree's `data_` array, from `tsp.h`,
      which is not part of this model. */
  const NumData: nat := 4
  const SpatialErr: nat := 2
  const TemporalErr: nat := 3

  /** The error of a node that covers a single leaf. */
  const Sentinel: real := -0.1

  /** An entry of `data_`: an integer, or a float stored by
      `glm::floatBitsToInt`, kept as the float it encodes. */
  datatype Word = Int(i: int) | FloatBits(f: real)

  /** The mapped volume file as floats, where the brick data starts, the
      padded brick side and the number of tree nodes. */
  datatype Volume = Volume(voxels: seq<real>, headerOffset: nat, paddedBrickDim: nat, numTotalNodes: nat)
  {
    function NumBrickVals(): nat
    {
      paddedBrickDim * paddedBrickDim * paddedBrickDim
    }

    /** Every node's brick lies inside the file. */
    ghost predicate Valid()
    {
      && 0 < paddedBrickDim
      && 0 < numTotalNodes
      && headerOffset + numTotalNodes * NumBrickVals() <= |voxels|
    }
  }

  /** The leaves a node covers: listed, and all nodes of the tree. */
  ghost predicate ValidLeaves(v: Volume, leaves: seq<nat>)
  {
    && 0 < |leaves|
    && forall t :: 0 <= t < |leaves| ==> leaves[t] < v.numTotalNodes
  }

  /** `cover[b]` is the leaf list `CoveredLeafBricks(b)` (spatial pass) or
      `CoveredBSTLeafBricks(b)` (temporal pass) returns. */
  ghost predicate ValidCover(v: Volume, cover: seq<seq<nat>>)
  {
    && |cover| == v.numTotalNodes
    && forall b :: 0 <= b < |cover| ==> ValidLeaves(v, cover[b])
  }

  datatype Pass = Spatial | Temporal
  {
    /** The exponent the normalisation applies. */
    function Exponent(): real
    {
      match this
      case Spatial => 0.5
      case Temporal => 0.25
    }

    /** The slot of a node's `data_` entry the pass writes. */
    function Field(): nat
    {
      match this
      case Spatial => SpatialErr
      case Temporal => TemporalErr
    }
  }

  lemma MulBound(b: nat, i: nat, n: nat, w: nat)
    requires b < n && i < w
    ensures b * w + i < n * w
  {
    assert n * w == b * w + w + (n - b - 1) * w;
  }

  /** Position in the file of voxel `i` of node `b`'s brick. */
  function Offset(v: Volume, b: nat, i: nat): (k: nat)
    requires v.Valid() && b < v.numTotalNodes && i < v.NumBrickVals()
    ensures k < |v.voxels|
  {
    MulBound(b, i, v.numTotalNodes, v.NumBrickVals());
    v.headerOffset + b * v.NumBrickVals() + i
  }

  function Sample(v: Volume, b: nat, i: nat): real
    requires v.Valid() && b < v.numTotalNodes && i < v.NumBrickVals()
  {
    v.voxels[Offset(v, b, i)]
  }

  /** `x` truncated to a 32-bit `unsigned int`. */
  function Wrap32(x: nat): (r: nat)
    ensures r < 0x1_0000_0000 && r <= x
    ensures r == x <==> x < 0x1_0000_0000
  {
    x % 0x1_0000_0000
  }

  /** Position of voxel `i` of node `b`'s brick where the node index is an
      `unsigned int` (a covered leaf in either pass, the node itself in the
      temporal pass): `b * numBrickVals` is a 32-bit product and wraps
      before it is widened, so a brick past 2^32 floats is read at a lower
      position, still inside the file. */
  function WrappedOffset(v: Volume, b: nat, i: nat): (k: nat)
    requires v.Valid() && b < v.numTotalNodes && i < v.NumBrickVals()
    ensures k <= Offset(v, b, i) < |v.voxels|
    ensures k == Offset(v, b, i) <==> b * v.NumBrickVals() < 0x1_0000_0000
  {
    v.headerOffset + Wrap32(b * v.NumBrickVals()) + i
  }

  function WrappedSample(v: Volume, b: nat, i: nat): real
    requires v.Valid() && b < v.numTotalNodes && i < v.NumBrickVals()
  {
    v.voxels[WrappedOffset(v, b, i)]
  }

  /** When all brick data fits below 2^32 floats, no product wraps and
      the two ways of addressing a voxel agree. */
  lemma NoWrapBelow32Bits(v: Volume, b: nat, i: nat)
    requires v.Valid() && b < v.numTotalNodes && i < v.NumBrickVals()
    requires v.numTotalNodes * v.NumBrickVals() <= 0x1_0000_0000
    ensures WrappedSample(v, b, i) == Sample(v, b, i)
  {
    MulBound(b, i, v.numTotalNodes, v.NumBrickVals());
  }

  function Brick(v: Volume, b: nat): (r: seq<real>)
    requires v.Valid() && b < v.numTotalNodes
    ensures |r| == v.NumBrickVals()
  {
    seq(v.NumBrickVals(), i requires 0 <= i < v.NumBrickVals() => Sample(v, b, i))
  }

  /** Mean intensity of a brick (first spatial pass). */
  function Average(v: Volume, b: nat): real
    requires v.Valid() && b < v.numTotalNodes
  {
    Stats.Sum(Brick(v, b)) / (v.NumBrickVals() as real)
  }

  /** Squared deviations of leaf `l`'s voxels from `c`. */
  function DevTerms(m: Libm, v: Volume, l: nat, c: real): (r: seq<real>)
    requires v.Valid() && l < v.numTotalNodes
    ensures |r| == v.NumBrickVals()
  {
    seq(v.NumBrickVals(), i requires 0 <= i < v.NumBrickVals() => m.pow(WrappedSample(v, l, i) - c, 2.0))
  }

  /** Per covered leaf, the sum of its squared deviations from `c`. */
  function LeafTerms(m: Libm, v: Volume, leaves: seq<nat>, c: real): (r: seq<real>)
    requires v.Valid() && ValidLeaves(v, leaves)
    ensures |r| == |leaves|
  {
    seq(|leaves|, t requires 0 <= t < |leaves| => Stats.Sum(DevTerms(m, v, leaves[t], c)))
  }

  /** Raw spatial error of node `b`: the root mean squared deviation of
      all covered leaf voxels from the node's own brick average, or the
      sentinel for a node covering one leaf. */
  function SpatialError(m: Libm, v: Volume, cover: seq<seq<nat>>, b: nat): real
    requires v.Valid() && ValidCover(v, cover) && b < v.numTotalNodes
  {
    var leaves := cover[b];
    if |leaves| == 1 then Sentinel
    else m.sqrt(Stats.Sum(LeafTerms(m, v, leaves, Average(v, b))) / ((|leaves| * v.NumBrickVals()) as real))
  }

  /** Squared deviations, at voxel `i`, of every covered leaf from node
      `b`'s own voxel. */
  function AcrossTerms(m: Libm, v: Volume, leaves: seq<nat>, b: nat, i: nat): (r: seq<real>)
    requires v.Valid() && ValidLeaves(v, leaves) && b < v.numTotalNodes && i < v.NumBrickVals()
    ensures |r| == |leaves|
  {
    seq(|leaves|, t requires 0 <= t < |leaves| => m.pow(WrappedSample(v, leaves[t], i) - WrappedSample(v, b, i), 2.0))
  }

  /** Per voxel, the standard deviation of the covered leaves around the
      node's voxel. */
  function VoxelDevs(m: Libm, v: Volume, leaves: seq<nat>, b: nat): (r: seq<real>)
    requires v.Valid() && ValidLeaves(v, leaves) && b < v.numTotalNodes
    ensures |r| == v.NumBrickVals()
  {
    seq(v.NumBrickVals(), i requires 0 <= i < v.NumBrickVals() =>
      m.sqrt(Stats.Sum(AcrossTerms(m, v, leaves, b, i)) / (|leaves| as real)))
  }

  /** Raw temporal error of node `b`: the per-voxel deviations averaged
      over the brick, or the sentinel for a node at the lowest BST level. */
  function TemporalError(m: Libm, v: Volume, cover: seq<seq<nat>>, b: nat): real
    requires v.Valid() && ValidCover(v, cover) && b < v.numTotalNodes
  {
    var leaves := cover[b];
    if |leaves| == 1 then Sentinel
    else Stats.Sum(VoxelDevs(m, v, leaves, b)) / (v.NumBrickVals() as real)
  }

  function RawError(m: Libm, pass: Pass, v: Volume, cover: seq<seq<nat>>, b: nat): real
    requires v.Valid() && ValidCover(v, cover) && b < v.numTotalNodes
  {
    match pass
    case Spatial => SpatialError(m, v, cover, b)
    case Temporal => TemporalError(m, v, cover, b)
  }

  /** The raw errors of all nodes, in node order. */
  function RawErrors(m: Libm, pass: Pass, v: Volume, cover: seq<seq<nat>>): (r: seq<real>)
    requires v.Valid() && ValidCover(v, cover)
    ensures |r| == v.numTotalNodes
  {
    seq(v.numTotalNodes, b requires 0 <= b < v.numTotalNodes => RawError(m, pass, v, cover, b))
  }

  /** Only positive errors are raised to the pass's exponent; zero and the
      sentinel pass through. */
  function Normalize(m: Libm, pass: Pass, e: real): real
  {
    if e > 0.0 then m.pow(e, pass.Exponent()) else e
  }

  function Normalizer(m: Libm, pass: Pass): real -> real
  {
    e => Normalize(m, pass, e)
  }

  // ---------------------------------------------------------------------
  // Properties of the raw errors

  lemma DivNonNegative(x: real, d: real)
    requires 0.0 <= x && 0.0 < d
    ensures 0.0 <= x / d
    ensures x / d == 0.0 <==> x == 0.0
  {
    assert x == (x / d) * d;
  }

  /** Leaf `l` contributes no squared deviation exactly when every one of
      its voxels equals `c`. */
  lemma DevTermsZero(m: Libm, v: Volume, l: nat, c: real)
    requires Lawful(m) && v.Valid() && l < v.numTotalNodes
    ensures Stats.AllNonNegative(DevTerms(m, v, l, c))
    ensures 0.0 <= Stats.Sum(DevTerms(m, v, l, c))
    ensures Stats.Sum(DevTerms(m, v, l, c)) == 0.0 <==>
      forall i :: 0 <= i < v.NumBrickVals() ==> WrappedSample(v, l, i) == c
  {
    var d := DevTerms(m, v, l, c);
    forall i | 0 <= i < |d|
      ensures 0.0 <= d[i] && (d[i] == 0.0 <==> WrappedSample(v, l, i) == c)
    {
      SqNonNegative(WrappedSample(v, l, i) - c);
      SqZeroIff(WrappedSample(v, l, i) - c);
    }
    Stats.SumNonNegative(d);
  }

  /** The summed deviation of a node's leaves vanishes exactly when every
      voxel of every covered leaf equals `c`. */
  lemma LeafTermsZero(m: Libm, v: Volume, leaves: seq<nat>, c: real)
    requires Lawful(m) && v.Valid() && ValidLeaves(v, leaves)
    ensures 0.0 <= Stats.Sum(LeafTerms(m, v, leaves, c))
    ensures Stats.Sum(LeafTerms(m, v, leaves, c)) == 0.0 <==>
      forall t, i :: 0 <= t < |leaves| && 0 <= i < v.NumBrickVals() ==> WrappedSample(v, leaves[t], i) == c
  {
    var lt := LeafTerms(m, v, leaves, c);
    forall t | 0 <= t < |lt|
      ensures 0.0 <= lt[t]
      ensures lt[t] == 0.0 <==> forall i :: 0 <= i < v.NumBrickVals() ==> WrappedSample(v, leaves[t], i) == c
    {
      DevTermsZero(m, v, leaves[t], c);
    }
    Stats.SumNonNegative(lt);
  }

  /** A node's spatial error is the sentinel exactly when it covers one
      leaf; otherwise it is non-negative, and zero exactly when every voxel
      of every covered leaf equals the node's brick average. */
  lemma SpatialErrorCases(m: Libm, v: Volume, cover: seq<seq<nat>>, b: nat)
    requires Lawful(m) && v.Valid() && ValidCover(v, cover) && b < v.numTotalNodes
    ensures SpatialError(m, v, cover, b) == Sentinel <==> |cover[b]| == 1
    ensures |cover[b]| != 1 ==> 0.0 <= SpatialError(m, v, cover, b)
    ensures |cover[b]| != 1 ==>
      (SpatialError(m, v, cover, b) == 0.0 <==>
        forall t, i :: 0 <= t < |cover[b]| && 0 <= i < v.NumBrickVals() ==>
          WrappedSample(v, cover[b][t], i) == Average(v, b))
  {
    var leaves := cover[b];
    if |leaves| != 1 {
      var avg := Average(v, b);
      LeafTermsZero(m, v, leaves, avg);
      var s := Stats.Sum(LeafTerms(m, v, leaves, avg));
      var d := (|leaves| * v.NumBrickVals()) as real;
      Product(|leaves| as real, v.NumBrickVals() as real);
      DivNonNegative(s, d);
      SqrtZeroIff(m, s / d);
    }
  }

  /** At voxel `i` the covered leaves deviate from the node exactly when
      one of them differs from the node's voxel. */
  lemma AcrossTermsZero(m: Libm, v: Volume, leaves: seq<nat>, b: nat, i: nat)
    requires Lawful(m) && v.Valid() && ValidLeaves(v, leaves) && b < v.numTotalNodes && i < v.NumBrickVals()
    ensures 0.0 <= Stats.Sum(AcrossTerms(m, v, leaves, b, i))
    ensures Stats.Sum(AcrossTerms(m, v, leaves, b, i)) == 0.0 <==>
      forall t :: 0 <= t < |leaves| ==> WrappedSample(v, leaves[t], i) == WrappedSample(v, b, i)
  {
    var a := AcrossTerms(m, v, leaves, b, i);
    forall t | 0 <= t < |a|
      ensures 0.0 <= a[t] && (a[t] == 0.0 <==> WrappedSample(v, leaves[t], i) == WrappedSample(v, b, i))
    {
      SqNonNegative(WrappedSample(v, leaves[t], i) - WrappedSample(v, b, i));
      SqZeroIff(WrappedSample(v, leaves[t], i) - WrappedSample(v, b, i));
    }
    Stats.SumNonNegative(a);
  }

  lemma VoxelDevsZero(m: Libm, v: Volume, leaves: seq<nat>, b: nat)
    requires Lawful(m) && v.Valid() && ValidLeaves(v, leaves) && b < v.numTotalNodes
    ensures 0.0 <= Stats.Sum(VoxelDevs(m, v, leaves, b))
    ensures Stats.Sum(VoxelDevs(m, v, leaves, b)) == 0.0 <==>
      forall t, i :: 0 <= t < |leaves| && 0 <= i < v.NumBrickVals() ==> WrappedSample(v, leaves[t], i) == WrappedSample(v, b, i)
  {
    var vd := VoxelDevs(m, v, leaves, b);
    forall i | 0 <= i < |vd|
      ensures 0.0 <= vd[i]
      ensures vd[i] == 0.0 <==> forall t :: 0 <= t < |leaves| ==> WrappedSample(v, leaves[t], i) == WrappedSample(v, b, i)
    {
      var s := Stats.Sum(AcrossTerms(m, v, leaves, b, i));
      AcrossTermsZero(m, v, leaves, b, i);
      DivNonNegative(s, |leaves| as real);
      SqrtZeroIff(m, s / (|leaves| as real));
    }
    Stats.SumNonNegative(vd);
  }

  /** A node's temporal error is the sentinel exactly when it covers one
      BST leaf; otherwise it is non-negative, and zero exactly when every
      covered leaf agrees with the node voxel by voxel. */
  lemma TemporalErrorCases(m: Libm, v: Volume, cover: seq<seq<nat>>, b: nat)
    requires Lawful(m) && v.Valid() && ValidCover(v, cover) && b < v.numTotalNodes
    ensures TemporalError(m, v, cover, b) == Sentinel <==> |cover[b]| == 1
    ensures |cover[b]| != 1 ==> 0.0 <= TemporalError(m, v, cover, b)
    ensures |cover[b]| != 1 ==>
      (TemporalError(m, v, cover, b) == 0.0 <==>
        forall t, i :: 0 <= t < |cover[b]| && 0 <= i < v.NumBrickVals() ==>
          WrappedSample(v, cover[b][t], i) == WrappedSample(v, b, i))
  {
    var leaves := cover[b];
    if |leaves| != 1 {
      VoxelDevsZero(m, v, leaves, b);
      DivNonNegative(Stats.Sum(VoxelDevs(m, v, leaves, b)), v.NumBrickVals() as real);
    }
  }

  // ---------------------------------------------------------------------
  // Properties of the normalisation

  /** Normalisation keeps the sign and leaves non-positive errors, the
      sentinel among them, untouched. */
  lemma NormalizeSign(m: Libm, pass: Pass, e: real)
    requires Lawful(m)
    ensures 0.0 < Normalize(m, pass, e) <==> 0.0 < e
    ensures e <= 0.0 ==> Normalize(m, pass, e) == e
  {
    if 0.0 < e {
      match pass
      case Spatial =>
        SqrtZeroIff(m, e);
      case Temporal =>
        FourthRootPositive(m, e);
    }
  }

  /** Normalisation is strictly increasing, so it keeps the order of the
      errors. */
  lemma NormalizeStrictlyIncreasing(m: Libm, pass: Pass, a: real, b: real)
    requires Lawful(m) && a < b
    ensures Normalize(m, pass, a) < Normalize(m, pass, b)
  {
    NormalizeSign(m, pass, a);
    NormalizeSign(m, pass, b);
    if 0.0 < a {
      match pass
      case Spatial =>
        SqrtMonotone(m, a, b);
      case Temporal =>
        FourthRootMonotone(m, a, b);
    }
  }

  /** Sorting the normalised errors gives the normalised sorted errors. */
  lemma NormalizeCommutesWithSort(m: Libm, pass: Pass, s: seq<real>)
    requires Lawful(m)
    ensures Stats.Sort(Seqs.MapSeq(s, Normalizer(m, pass))) == Seqs.MapSeq(Stats.Sort(s), Normalizer(m, pass))
  {
    var f := Normalizer(m, pass);
    var t := Stats.Sort(s);
    var ft := Seqs.MapSeq(t, f);
    forall i, j | 0 <= i < j < |ft|
      ensures ft[i] <= ft[j]
    {
      if t[i] < t[j] {
        NormalizeStrictlyIncreasing(m, pass, t[i], t[j]);
      }
    }
    Seqs.MapPermutation(t, s, f);
    Stats.SortedPermutationUnique(Stats.Sort(Seqs.MapSeq(s, f)), ft);
  }

  /** The reported median is the normalised median of the raw errors. */
  lemma NormalizedMedian(m: Libm, pass: Pass, s: seq<real>)
    requires Lawful(m) && |s| > 0
    ensures Stats.Median(Seqs.MapSeq(s, Normalizer(m, pass))) == Normalize(m, pass, Stats.Median(s))
  {
    NormalizeCommutesWithSort(m, pass, s);
  }

  // ---------------------------------------------------------------------
  // Storing the errors and the reported statistics

  /** `data'` is `data` with slot `field` of every node's entry holding
      that node's error as float bits. */
  ghost predicate Stored(data: seq<Word>, data': seq<Word>, field: nat, errs: seq<real>)
  {
    && |data| == |errs| * NumData
    && |data'| == |data|
    && forall j :: 0 <= j < |data| ==>
        data'[j] == (if j % NumData == field then FloatBits(errs[j / NumData]) else data[j])
  }

  /** Reading a node's slot back as a float. */
  function ReadError(data: seq<Word>, node: nat, field: nat): Option<real>
    requires field < NumData && node * NumData + field < |data|
  {
    match data[node * NumData + field]
    case FloatBits(f) => Some(f)
    case Int(_) => None
  }

  /** After storing, every node's slot reads back as its error and every
      other slot `g` of the entry is as before. */
  lemma StoredReadBack(data: seq<Word>, data': seq<Word>, field: nat, errs: seq<real>, node: nat, g: nat)
    requires field < NumData && g < NumData && Stored(data, data', field, errs) && node < |errs|
    ensures ReadError(data', node, field) == Some(errs[node])
    ensures g != field ==> data'[node * NumData + g] == data[node * NumData + g]
  {
    var j := node * NumData + field;
    assert j / NumData == node && j % NumData == field;
    assert (node * NumData + g) % NumData == g;
  }

  /** Min, max and median of the normalised errors, as stored in the
      tree's `min…Error_`, `max…Error_` and `median…Error_` members. */
  datatype ErrorStats = ErrorStats(min: real, max: real, median: real)

  ghost predicate Reports(st: ErrorStats, norm: seq<real>)
  {
    && |norm| > 0
    && Stats.IsReportedMin(st.min, norm)
    && Stats.IsReportedMax(st.max, norm)
    && st.median == Stats.Median(norm)
  }

  /** Node `b`'s brick average, summed voxel by voxel. */
  method BrickAverage(v: Volume, b: nat) returns (avg: real)
    requires v.Valid() && b < v.numTotalNodes
    ensures avg == Average(v, b)
  {
    ghost var brick := Brick(v, b);
    var sum := 0.0;
    var i := 0;
    while i < v.NumBrickVals()
      invariant i <= v.NumBrickVals()
      invariant sum == Stats.Sum(brick[..i])
    {
      Stats.SumPrefix(brick, i);
      sum := sum + Sample(v, b, i);
      i := i + 1;
    }
    assert brick[..i] == brick;
    avg := sum / (v.NumBrickVals() as real);
  }

  /** Adds the squared deviations of leaf `l`'s voxels from `avg` to the
      running sum `acc`. */
  method AddLeafDeviation(m: Libm, v: Volume, l: nat, avg: real, acc: real) returns (sum: real)
    requires v.Valid() && l < v.numTotalNodes
    ensures sum == acc + Stats.Sum(DevTerms(m, v, l, avg))
  {
    ghost var dt := DevTerms(m, v, l, avg);
    sum := acc;
    var i := 0;
    while i < v.NumBrickVals()
      invariant i <= v.NumBrickVals()
      invariant sum == acc + Stats.Sum(dt[..i])
    {
      Stats.SumPrefix(dt, i);
      sum := sum + m.pow(WrappedSample(v, l, i) - avg, 2.0);
      i := i + 1;
    }
    assert dt[..i] == dt;
  }

  /** Second spatial pass for one node, given its brick average. */
  method SpatialNodeError(m: Libm, v: Volume, cover: seq<seq<nat>>, b: nat, avg: real) returns (e: real)
    requires v.Valid() && ValidCover(v, cover) && b < v.numTotalNodes
    requires avg == Average(v, b)
    ensures e == SpatialError(m, v, cover, b)
  {
    var leaves := cover[b];
    if |leaves| == 1 {
      return Sentinel;
    }
    ghost var lt := LeafTerms(m, v, leaves, avg);
    var sum := 0.0;
    var t := 0;
    while t < |leaves|
      invariant t <= |leaves|
      invariant sum == Stats.Sum(lt[..t])
    {
      Stats.SumPrefix(lt, t);
      sum := AddLeafDeviation(m, v, leaves[t], avg, sum);
      t := t + 1;
    }
    assert lt[..t] == lt;
    e := m.sqrt(sum / ((|leaves| * v.NumBrickVals()) as real));
  }

  /** Temporal error of one node: per voxel, the deviation of the covered
      leaves from the node's own voxel, averaged over the brick. */
  method TemporalNodeError(m: Libm, v: Volume, cover: seq<seq<nat>>, b: nat) returns (e: real)
    requires v.Valid() && ValidCover(v, cover) && b < v.numTotalNodes
    ensures e == TemporalError(m, v, cover, b)
  {
    var leaves := cover[b];
    if |leaves| == 1 {
      return Sentinel;
    }
    ghost var vd := VoxelDevs(m, v, leaves, b);
    var avgStdDev := 0.0;
    var i := 0;
    while i < v.NumBrickVals()
      invariant i <= v.NumBrickVals()
      invariant avgStdDev == Stats.Sum(vd[..i])
    {
      var stdDev := VoxelDev(m, v, leaves, b, i);
      Stats.SumPrefix(vd, i);
      avgStdDev := avgStdDev + stdDev;
      i := i + 1;
    }
    assert vd[..i] == vd;
    e := avgStdDev / (v.NumBrickVals() as real);
  }

  /** The inner loop of the temporal pass: the deviation of the covered
      leaves at voxel `i`. */
  method VoxelDev(m: Libm, v: Volume, leaves: seq<nat>, b: nat, i: nat) returns (d: real)
    requires v.Valid() && ValidLeaves(v, leaves) && b < v.numTotalNodes && i < v.NumBrickVals()
    ensures d == VoxelDevs(m, v, leaves, b)[i]
  {
    ghost var at := AcrossTerms(m, v, leaves, b, i);
    var stdDev := 0.0;
    var t := 0;
    while t < |leaves|
      invariant t <= |leaves|
      invariant stdDev == Stats.Sum(at[..t])
    {
      Stats.SumPrefix(at, t);
      stdDev := stdDev + m.pow(WrappedSample(v, leaves[t], i) - WrappedSample(v, b, i), 2.0);
      t := t + 1;
    }
    assert at[..t] == at;
    stdDev := stdDev / (|leaves| as real);
    d := m.sqrt(stdDev);
  }

  /** The normalisation loop: raise every positive error to the pass's
      exponent, store it in the pass's slot, and keep the running minimum
      and maximum over the non-negative results. */
  method StoreNormalized(m: Libm, pass: Pass, data: seq<Word>, raw: seq<real>)
    returns (data': seq<Word>, norm: seq<real>, lo: real, hi: real)
    requires |data| == |raw| * NumData
    ensures norm == Seqs.MapSeq(raw, Normalizer(m, pass))
    ensures Stored(data, data', pass.Field(), norm)
    ensures Stats.IsReportedMin(lo, norm) && Stats.IsReportedMax(hi, norm)
  {
    var field := pass.Field();
    data', norm := data, [];
    lo, hi := Stats.Ceiling, 0.0;
    var i := 0;
    while i < |raw|
      invariant i <= |raw| && |norm| == i && |data'| == |data|
      invariant forall k :: 0 <= k < i ==> norm[k] == Normalize(m, pass, raw[k])
      invariant forall j :: 0 <= j < |data| ==>
        data'[j] == (if j % NumData == field && j / NumData < i then FloatBits(norm[j / NumData]) else data[j])
      invariant Stats.IsReportedMin(lo, norm) && Stats.IsReportedMax(hi, norm)
    {
      var e := raw[i];
      if e > 0.0 {
        e := m.pow(e, pass.Exponent());
      }
      data' := data'[i * NumData + field := FloatBits(e)];
      Stats.ReportedStep(norm, e, lo, hi);
      if e < lo && 0.0 <= e {
        lo := e;
      }
      if e > hi && 0.0 <= e {
        hi := e;
      }
      norm := norm + [e];
      i := i + 1;
    }
  }

  /** `calculateSpatialError`: `None`, with `data` untouched, when the
      volume file cannot be mapped; otherwise every node's normalised
      spatial error stored in its slot and the statistics reported. */
  method CalculateSpatialError(m: Libm, mapped: bool, v: Volume, cover: seq<seq<nat>>, data: seq<Word>)
    returns (r: Option<ErrorStats>, data': seq<Word>)
    requires v.Valid() && ValidCover(v, cover) && |data| == v.numTotalNodes * NumData
    ensures !mapped ==> r == None && data' == data
    ensures mapped ==> r.Some?
    ensures mapped ==>
      var norm := Seqs.MapSeq(RawErrors(m, Spatial, v, cover), Normalizer(m, Spatial));
      Stored(data, data', SpatialErr, norm) && Reports(r.value, norm)
  {
    if !mapped {
      return None, data;
    }
    var n := v.numTotalNodes;
    var averages := [];
    var b := 0;
    while b < n
      invariant b <= n && |averages| == b
      invariant forall k :: 0 <= k < b ==> averages[k] == Average(v, k)
    {
      var avg := BrickAverage(v, b);
      averages := averages + [avg];
      b := b + 1;
    }
    var raw := [];
    b := 0;
    while b < n
      invariant b <= n && |raw| == b
      invariant forall k :: 0 <= k < b ==> raw[k] == SpatialError(m, v, cover, k)
    {
      var e := SpatialNodeError(m, v, cover, b, averages[b]);
      raw := raw + [e];
      b := b + 1;
    }
    assert raw == RawErrors(m, Spatial, v, cover);
    var norm, lo, hi;
    data', norm, lo, hi := StoreNormalized(m, Spatial, data, raw);
    r := Some(ErrorStats(lo, hi, Stats.Median(norm)));
  }

  /** `calculateTemporalError`, with the same shape as the spatial pass. */
  method CalculateTemporalError(m: Libm, mapped: bool, v: Volume, cover: seq<seq<nat>>, data: seq<Word>)
    returns (r: Option<ErrorStats>, data': seq<Word>)
    requires v.Valid() && ValidCover(v, cover) && |data| == v.numTotalNodes * NumData
    ensures !mapped ==> r == None && data' == data
    ensures mapped ==> r.Some?
    ensures mapped ==>
      var norm := Seqs.MapSeq(RawErrors(m, Temporal, v, cover), Normalizer(m, Temporal));
      Stored(data, data', TemporalErr, norm) && Reports(r.value, norm)
  {
    if !mapped {
      return None, data;
    }
    var n := v.numTotalNodes;
    var raw := [];
    var b := 0;
    while b < n
      invariant b <= n && |raw| == b
      invariant forall k :: 0 <= k < b ==> raw[k] == TemporalError(m, v, cover, k)
    {
      var e := TemporalNodeError(m, v, cover, b);
      raw := raw + [e];
      b := b + 1;
    }
    assert raw == RawErrors(m, Temporal, v, cover);
    var norm, lo, hi;
    data', norm, lo, hi := StoreNormalized(m, Temporal, data, raw);
    r := Some(ErrorStats(lo, hi, Stats.Median(norm)));
  }
}

=== FILE: seqs.dfy ===
/** Order-preserving filtering of sequences, the shape shared by every
    "keep the records that pass a test" loop of the modelled code
    (`std::remove_if` + `erase`, and the `if (...) push_back` loops). */
module Seqs {

  /** The elements of `s` that satisfy `p`, in their original order. */
  function Filter<T>(s: seq<T>, p: T -> bool): (r: seq<T>)
    ensures |r| <= |s|
    ensures forall x :: x in r ==> x in s && p(x)
    ensures forall x :: x in s && p(x) ==> x in r
  {
    if s == [] then [] else (if p(s[0]) then [s[0]] else []) + Filter(s[1..], p)
  }

  /** Filtering distributes over concatenation; this is what lets a loop
      that appends one record at a time maintain `Filter(s[..i], p)`. */
  lemma {:induction false} FilterConcat<T>(a: seq<T>, b: seq<T>, p: T -> bool)
    ensures Filter(a + b, p) == Filter(a, p) + Filter(b, p)
  {
    if a == [] {
      assert a + b == b;
    } else {
      assert (a + b)[0] == a[0];
      assert (a + b)[1..] == a[1..] + b;
      FilterConcat(a[1..], b, p);
    }
  }

  /** Filtering a prefix extended by one element. */
  lemma FilterSnoc<T>(s: seq<T>, x: T, p: T -> bool)
    ensures Filter(s + [x], p) == Filter(s, p) + (if p(x) then [x] else [])
  {
    FilterConcat(s, [x], p);
    assert [x][1..] == [];
  }

  /** `r` can be obtained from `s` by deleting elements, keeping the order. */
  ghost predicate SubsequenceOf<T>(r: seq<T>, s: seq<T>)
    decreases |s|
  {
    if r == [] then true
    else if s == [] then false
    else (r[0] == s[0] && SubsequenceOf(r[1..], s[1..])) || SubsequenceOf(r, s[1..])
  }

  lemma {:induction false} FilterIsSubsequence<T>(s: seq<T>, p: T -> bool)
    ensures SubsequenceOf(Filter(s, p), s)
  {
    if s != [] {
      FilterIsSubsequence(s[1..], p);
      var r := Filter(s, p);
      if p(s[0]) {
        assert r == [s[0]] + Filter(s[1..], p);
        assert r[0] == s[0] && r[1..] == Filter(s[1..], p);
        assert SubsequenceOf(r, s);
      } else {
        assert r == Filter(s[1..], p);
        if r != [] {
          assert SubsequenceOf(r, s);
        }
      }
    }
  }

  /** Filtering by a stronger test after a weaker one is filtering by the
      stronger test alone. */
  lemma {:induction false} FilterOfFilter<T>(s: seq<T>, weak: T -> bool, strong: T -> bool)
    requires forall x :: strong(x) ==> weak(x)
    ensures Filter(Filter(s, weak), strong) == Filter(s, strong)
  {
    if s != [] {
      FilterOfFilter(s[1..], weak, strong);
      if weak(s[0]) {
        assert Filter(s, weak) == [s[0]] + Filter(s[1..], weak);
        FilterConcat([s[0]], Filter(s[1..], weak), strong);
        assert [s[0]][1..] == [];
      } else {
        assert Filter(s, weak) == Filter(s[1..], weak);
      }
    }
  }

  /** Number of elements of `s` that satisfy `p`. */
  function Count<T>(s: seq<T>, p: T -> bool): nat
  {
    if s == [] then 0 else (if p(s[0]) then 1 else 0) + Count(s[1..], p)
  }

  lemma {:induction false} FilterLength<T>(s: seq<T>, p: T -> bool)
    ensures |Filter(s, p)| == Count(s, p)
  {
    if s != [] {
      FilterLength(s[1..], p);
    }
  }

  /** Applying `f` to every element. */
  function MapSeq<T, U>(s: seq<T>, f: T -> U): (r: seq<U>)
    ensures |r| == |s|
    ensures forall i :: 0 <= i < |s| ==> r[i] == f(s[i])
  {
    seq(|s|, i requires 0 <= i < |s| => f(s[i]))
  }

  /** Mapping keeps the subsequence relation. */
  lemma {:induction false} MapSubsequence<T, U>(r: seq<T>, s: seq<T>, f: T -> U)
    requires SubsequenceOf(r, s)
    ensures SubsequenceOf(MapSeq(r, f), MapSeq(s, f))
    decreases |s|
  {
    if r != [] {
      var mr, ms := MapSeq(r, f), MapSeq(s, f);
      assert ms[1..] == MapSeq(s[1..], f);
      if r[0] == s[0] && SubsequenceOf(r[1..], s[1..]) {
        MapSubsequence(r[1..], s[1..], f);
        assert mr[1..] == MapSeq(r[1..], f);
      } else {
        MapSubsequence(r, s[1..], f);
      }
    }
  }

  lemma {:induction false} CountConcat<T>(a: seq<T>, b: seq<T>, p: T -> bool)
    ensures Count(a + b, p) == Count(a, p) + Count(b, p)
  {
    if a == [] {
      assert a + b == b;
    } else {
      assert (a + b)[1..] == a[1..] + b;
      CountConcat(a[1..], b, p);
    }
  }

  lemma {:induction false} CountBounds<T>(s: seq<T>, p: T -> bool)
    ensures Count(s, p) <= |s|
    ensures (forall i :: 0 <= i < |s| ==> p(s[i])) ==> Count(s, p) == |s|
    ensures (forall i :: 0 <= i < |s| ==> !p(s[i])) ==> Count(s, p) == 0
  {
    if s != [] {
      CountBounds(s[1..], p);
      assert forall i :: 1 <= i < |s| ==> s[1..][i - 1] == s[i];
    }
  }

  /** Counting does not depend on the order of the elements. */
  lemma {:induction false} CountPermutation<T>(a: seq<T>, b: seq<T>, p: T -> bool)
    requires multiset(a) == multiset(b)
    ensures Count(a, p) == Count(b, p)
    decreases |a|
  {
    if a == [] {
      assert |multiset(b)| == 0;
    } else {
      var j := RemoveHead(a, b);
      var x, u, v := a[0], b[..j], b[j + 1..];
      CountPermutation(a[1..], u + v, p);
      assert a == [x] + a[1..];
      CountConcat(u + [x], v, p);
      CountConcat(u, [x], p);
      CountConcat(u, v, p);
      assert [x][1..] == [];
    }
  }

  lemma MapConcat<T, U>(a: seq<T>, b: seq<T>, f: T -> U)
    ensures MapSeq(a + b, f) == MapSeq(a, f) + MapSeq(b, f)
  {
  }

  /** Taking out one occurrence of `a`'s head from a permutation `b` of
      `a` leaves a permutation of `a`'s tail. */
  lemma RemoveHead<T>(a: seq<T>, b: seq<T>) returns (j: nat)
    requires a != [] && multiset(a) == multiset(b)
    ensures j < |b| && b[j] == a[0]
    ensures b == b[..j] + [a[0]] + b[j + 1..]
    ensures multiset(a[1..]) == multiset(b[..j] + b[j + 1..])
  {
    var x := a[0];
    assert x in multiset(b);
    j :| 0 <= j < |b| && b[j] == x;
    assert b == b[..j] + [x] + b[j + 1..];
    assert a == [x] + a[1..];
    calc {
      multiset(a[1..]);
      multiset(a) - multiset{x};
      multiset(b) - multiset{x};
      { assert multiset(b) == multiset(b[..j]) + multiset{x} + multiset(b[j + 1..]); }
      multiset(b[..j]) + multiset(b[j + 1..]);
      multiset(b[..j] + b[j + 1..]);
    }
  }

  /** Mapping a permutation gives a permutation of the mapped sequence. */
  lemma {:induction false} MapPermutation<T, U>(a: seq<T>, b: seq<T>, f: T -> U)
    requires multiset(a) == multiset(b)
    ensures multiset(MapSeq(a, f)) == multiset(MapSeq(b, f))
    decreases |a|
  {
    if a == [] {
      assert |multiset(b)| == 0;
    } else {
      var j := RemoveHead(a, b);
      var x, u, v := a[0], b[..j], b[j + 1..];
      MapPermutation(a[1..], u + v, f);
      assert a == [x] + a[1..];
      MapConcat([x], a[1..], f);
      MapConcat(u + [x], v, f);
      MapConcat(u, [x], f);
      MapConcat(u, v, f);
      assert MapSeq([x], f) == [f(x)];
      var mu, mv := MapSeq(u, f), MapSeq(v, f);
      calc {
        multiset(MapSeq(b, f));
        multiset(mu + [f(x)] + mv);
        multiset(mu) + multiset{f(x)} + multiset(mv);
        multiset(mu + mv) + multiset{f(x)};
        multiset(MapSeq(a[1..], f)) + multiset{f(x)};
        multiset([f(x)] + MapSeq(a[1..], f));
        multiset(MapSeq(a, f));
      }
    }
  }

  /** Index of the first element satisfying `p`, or `|s|` when none
      does. */
  function FirstIndex<T>(s: seq<T>, p: T -> bool): (i: nat)
    ensures i <= |s|
    ensures i < |s| ==> p(s[i])
    ensures forall k :: 0 <= k < i ==> !p(s[k])
  {
    if s == [] then 0
    else if p(s[0]) then 0
    else
      var i := FirstIndex(s[1..], p);
      assert forall k :: 1 <= k <= i ==> s[k] == s[1..][k - 1];
      1 + i
  }

  lemma FirstIndexSnoc<T>(s: seq<T>, x: T, p: T -> bool)
    ensures FirstIndex(s + [x], p) ==
      if FirstIndex(s, p) < |s| then FirstIndex(s, p) else if p(x) then |s| else |s| + 1
  {
    var i, j := FirstIndex(s, p), FirstIndex(s + [x], p);
    assert forall k :: 0 <= k < |s| ==> (s + [x])[k] == s[k];
    assert (s + [x])[|s|] == x;
  }
}

=== FILE: stats.dfy ===
/** The summary statistics the error passes of the sand-volume TSP report
    after normalising every node's error: the minimum and maximum over the
    non-negative errors, and the median of the sorted error array. */
module Stats {
  import Seqs

  /** The value the running minimum starts from (`1e20f`). */
  const Ceiling: real := 100_000_000_000_000_000_000.0

  /** Sum of a sequence of reals, accumulated front to back. */
  function Sum(s: seq<real>): real
  {
    if s == [] then 0.0 else Sum(s[..|s| - 1]) + s[|s| - 1]
  }

  /** The running sum a loop keeps after `i + 1` elements. */
  lemma SumPrefix(s: seq<real>, i: nat)
    requires i < |s|
    ensures Sum(s[..i + 1]) == Sum(s[..i]) + s[i]
  {
    assert s[..i + 1][..i] == s[..i];
  }

  ghost predicate AllNonNegative(s: seq<real>)
  {
    forall i :: 0 <= i < |s| ==> 0.0 <= s[i]
  }

  /** A sum of non-negative terms is non-negative, and it vanishes exactly
      when every term does. */
  lemma {:induction false} SumNonNegative(s: seq<real>)
    requires AllNonNegative(s)
    ensures 0.0 <= Sum(s)
    ensures Sum(s) == 0.0 <==> forall i :: 0 <= i < |s| ==> s[i] == 0.0
  {
    if s != [] {
      var init := s[..|s| - 1];
      assert forall i :: 0 <= i < |init| ==> init[i] == s[i];
      SumNonNegative(init);
    }
  }

  ghost predicate SortedAsc(s: seq<real>)
  {
    forall i, j :: 0 <= i < j < |s| ==> s[i] <= s[j]
  }

  function Insert(x: real, s: seq<real>): (r: seq<real>)
    requires SortedAsc(s)
    ensures |r| == |s| + 1
    ensures SortedAsc(r)
    ensures multiset(r) == multiset(s) + multiset{x}
  {
    if s == [] then [x]
    else if x <= s[0] then [x] + s
    else
      var t := Insert(x, s[1..]);
      assert s == [s[0]] + s[1..];
      ConsSorted(s[0], t, s[1..], x);
      [s[0]] + t
  }

  /** A head no larger than a sorted tail's elements keeps it sorted; the
      tail's elements are those of the sorted `rest` behind `h`, plus a
      larger `x`. */
  lemma ConsSorted(h: real, t: seq<real>, rest: seq<real>, x: real)
    requires SortedAsc(t) && SortedAsc([h] + rest) && h < x
    requires multiset(t) == multiset(rest) + multiset{x}
    ensures SortedAsc([h] + t)
  {
    forall k | 0 <= k < |t|
      ensures h <= t[k]
    {
      assert t[k] in multiset(t);
      if t[k] != x {
        assert t[k] in multiset(rest);
        var m :| 0 <= m < |rest| && rest[m] == t[k];
        assert ([h] + rest)[0] == h && ([h] + rest)[m + 1] == rest[m];
      }
    }
  }

  /** Ascending sort; stands for the `std::sort` the passes call, which
      yields the same sequence because a sorted permutation is unique
      (`SortedPermutationUnique`). */
  function Sort(s: seq<real>): (r: seq<real>)
    ensures |r| == |s|
    ensures SortedAsc(r)
    ensures multiset(r) == multiset(s)
  {
    if s == [] then []
    else
      assert s == [s[0]] + s[1..];
      Insert(s[0], Sort(s[1..]))
  }

  /** Two sorted arrangements of the same multiset are the same sequence. */
  lemma {:induction false} SortedPermutationUnique(a: seq<real>, b: seq<real>)
    requires SortedAsc(a) && SortedAsc(b)
    requires multiset(a) == multiset(b)
    ensures a == b
  {
    if a != [] {
      SortedPermutationHeads(a, b);
      SortedPermutationUnique(a[1..], b[1..]);
      assert a == [a[0]] + a[1..];
      assert b == [b[0]] + b[1..];
    } else {
      assert |b| == |multiset(b)| == 0;
    }
  }

  /** Two sorted arrangements of the same non-empty multiset share their
      head, and their tails are again sorted arrangements of one
      multiset. */
  lemma SortedPermutationHeads(a: seq<real>, b: seq<real>)
    requires SortedAsc(a) && SortedAsc(b) && a != []
    requires multiset(a) == multiset(b)
    ensures b != [] && a[0] == b[0]
    ensures SortedAsc(a[1..]) && SortedAsc(b[1..])
    ensures multiset(a[1..]) == multiset(b[1..])
  {
    assert |b| == |multiset(b)| == |a|;
    assert a == [a[0]] + a[1..];
    assert b == [b[0]] + b[1..];
    SortedHeadLeast(a, b[0]);
    SortedHeadLeast(b, a[0]);
    assert multiset(a[1..]) == multiset(a) - multiset{a[0]};
    assert multiset(b[1..]) == multiset(b) - multiset{b[0]};
  }

  /** The head of a sorted sequence is at most any of its elements. */
  lemma SortedHeadLeast(s: seq<real>, x: real)
    requires SortedAsc(s) && x in multiset(s)
    ensures s[0] <= x
  {
    var k :| 0 <= k < |s| && s[k] == x;
    assert k == 0 || s[0] <= s[k];
  }

  /** The element at position `|s| / 2` of the sorted array. */
  function Median(s: seq<real>): (r: real)
    requires |s| > 0
    ensures r in s
  {
    var t := Sort(s);
    assert t[|s| / 2] in multiset(t);
    t[|s| / 2]
  }

  /** The median of an already sorted sequence is its middle element. */
  lemma MedianOfSorted(s: seq<real>)
    requires |s| > 0 && SortedAsc(s)
    ensures Median(s) == s[|s| / 2]
  {
    SortedPermutationUnique(Sort(s), s);
  }

  /** The median of three ordered values is the middle one. */
  lemma MedianOfThree(x: real, y: real, z: real)
    requires x <= y <= z
    ensures Median([x, y, z]) == y
  {
    var s := [x, y, z];
    assert SortedAsc(s) by {
      assert s[0] <= s[1] <= s[2];
    }
    MedianOfSorted(s);
  }

  function Below(c: real): real -> bool { x => x < c }
  function AtMost(c: real): real -> bool { x => x <= c }

  /** In a sorted sequence at most `k` elements lie strictly below the
      element at position `k`. */
  lemma SortedBelow(t: seq<real>, k: nat)
    requires SortedAsc(t) && k < |t|
    ensures Seqs.Count(t, Below(t[k])) <= k
  {
    var p := Below(t[k]);
    assert t == t[..k] + t[k..];
    Seqs.CountConcat(t[..k], t[k..], p);
    Seqs.CountBounds(t[..k], p);
    assert forall i :: 0 <= i < |t[k..]| ==> !p(t[k..][i]);
    Seqs.CountBounds(t[k..], p);
  }

  /** In a sorted sequence at least `k + 1` elements lie at or below the
      element at position `k`. */
  lemma SortedAtMost(t: seq<real>, k: nat)
    requires SortedAsc(t) && k < |t|
    ensures Seqs.Count(t, AtMost(t[k])) >= k + 1
  {
    var p := AtMost(t[k]);
    var lo := t[..k + 1];
    assert t == lo + t[k + 1..];
    Seqs.CountConcat(lo, t[k + 1..], p);
    assert forall i :: 0 <= i < |lo| ==> p(lo[i]);
    Seqs.CountBounds(lo, p);
  }

  /** The median is an order statistic: at most `|s| / 2` elements lie
      strictly below it and more than `|s| / 2` lie at or below it. */
  lemma MedianRank(s: seq<real>)
    requires |s| > 0
    ensures Seqs.Count(s, Below(Median(s))) <= |s| / 2
    ensures Seqs.Count(s, AtMost(Median(s))) >= |s| / 2 + 1
  {
    var t := Sort(s);
    SortedBelow(t, |s| / 2);
    SortedAtMost(t, |s| / 2);
    Seqs.CountPermutation(s, t, Below(Median(s)));
    Seqs.CountPermutation(s, t, AtMost(Median(s)));
  }

  /** What the normalisation loop leaves in `minNorm`: the least
      non-negative error, or `Ceiling` when there is none below it. */
  ghost predicate IsReportedMin(r: real, s: seq<real>)
  {
    && (r == Ceiling || (r in s && 0.0 <= r))
    && r <= Ceiling
    && forall i :: 0 <= i < |s| && 0.0 <= s[i] ==> r <= s[i]
  }

  /** What the normalisation loop leaves in `maxNorm`: the greatest
      non-negative error, or `0` when there is none. */
  ghost predicate IsReportedMax(r: real, s: seq<real>)
  {
    && (r == 0.0 || (r in s && 0.0 <= r))
    && 0.0 <= r
    && forall i :: 0 <= i < |s| && 0.0 <= s[i] ==> s[i] <= r
  }

  /** Each predicate pins its value down uniquely. */
  lemma ReportedUnique(s: seq<real>, a: real, b: real)
    ensures IsReportedMin(a, s) && IsReportedMin(b, s) ==> a == b
    ensures IsReportedMax(a, s) && IsReportedMax(b, s) ==> a == b
  {
  }

  /** One step of the loop: folding the next error into the running
      minimum and maximum keeps both predicates. */
  lemma ReportedStep(s: seq<real>, e: real, lo: real, hi: real)
    requires IsReportedMin(lo, s) && IsReportedMax(hi, s)
    ensures IsReportedMin(if e < lo && 0.0 <= e then e else lo, s + [e])
    ensures IsReportedMax(if e > hi && 0.0 <= e then e else hi, s + [e])
  {
    assert forall x :: x in s ==> x in s + [e];
  }

  /** The median need not lie between the reported minimum and maximum:
      leaf nodes carry the negative sentinel, which the minimum skips but
      the sort does not. */
  lemma MedianCanBeSentinel(n: real, v: real)
    requires n < 0.0 <= v <= Ceiling
    ensures var s := [n, n, v];
      && Median(s) == n
      && IsReportedMin(v, s)
      && IsReportedMax(v, s)
  {
    MedianOfThree(n, n, v);
    OnlyNonNegative([n, n, v], 2);
  }

  /** When `s[k]` is the only non-negative error, it is both the reported
      minimum (below the ceiling) and the reported maximum. */
  lemma OnlyNonNegative(s: seq<real>, k: nat)
    requires k < |s| && 0.0 <= s[k] <= Ceiling
    requires forall i :: 0 <= i < |s| && i != k ==> s[i] < 0.0
    ensures IsReportedMin(s[k], s) && IsReportedMax(s[k], s)
  {
  }
}

=== FILE: text.dfy ===
/** String helpers that model the C++ standard-library calls used by the
    modelled code: `std::getline` splitting, `tolower` in the "C" locale,
    `std::to_string` and `std::stoi`, and the `find` family of
    `std::string`. Strings are `seq<char>`. */
module Text {
  import opened Wrappers
  import Seqs

  // ---------------------------------------------------------------------
  // Splitting with std::getline

  /** Index of the first `c` in `s`, or `|s|` when there is none. */
  function IndexOf(s: string, c: char): (k: nat)
    ensures k <= |s|
    ensures k < |s| ==> s[k] == c
    ensures c !in s[..k]
  {
    if s == [] then 0 else if s[0] == c then 0 else 1 + IndexOf(s[1..], c)
  }

  /** The pieces that repeated `std::getline(stream, item, d)` extracts from
      a stream holding `s`: each call consumes up to and including the next
      `d`, and the last call fails when the stream is exhausted, so a
      trailing `d` does not produce an empty last piece and the empty
      string produces no piece at all. Reading a file line by line is
      `Split(content, '\n')`. */
  function Split(s: string, d: char): (r: seq<string>)
    ensures forall i :: 0 <= i < |r| ==> d !in r[i]
    ensures r == [] <==> s == []
    decreases |s|
  {
    if s == [] then []
    else
      var k := IndexOf(s, d);
      if k == |s| then [s] else [s[..k]] + Split(s[k + 1..], d)
  }

  /** The inverse of splitting: the pieces glued back with `d`. */
  function Join(ps: seq<string>, d: char): string
  {
    if ps == [] then []
    else if |ps| == 1 then ps[0]
    else ps[0] + [d] + Join(ps[1..], d)
  }

  lemma JoinCons(p: string, ps: seq<string>, d: char)
    requires ps != []
    ensures Join([p] + ps, d) == p + [d] + Join(ps, d)
  {
    assert ([p] + ps)[1..] == ps;
  }

  lemma JoinSnoc(ps: seq<string>, p: string, d: char)
    requires ps != []
    ensures Join(ps + [p], d) == Join(ps, d) + [d] + p
    decreases |ps|
  {
    if |ps| == 1 {
      assert ps + [p] == [ps[0]] + [p];
      JoinCons(ps[0], [p], d);
    } else {
      assert ps + [p] == [ps[0]] + (ps[1..] + [p]);
      JoinCons(ps[0], ps[1..] + [p], d);
      JoinSnoc(ps[1..], p, d);
      JoinCons(ps[0], ps[1..], d);
      assert [ps[0]] + ps[1..] == ps;
    }
  }

  lemma {:induction false} IndexOfAfterFree(a: string, b: string, d: char)
    requires d !in a
    ensures IndexOf(a + [d] + b, d) == |a|
  {
    if a != [] {
      assert (a + [d] + b)[1..] == a[1..] + [d] + b;
      IndexOfAfterFree(a[1..], b, d);
    }
  }

  /** Joining the pieces gives the text back when it does not end in the
      delimiter. */
  lemma {:induction false} JoinSplit(s: string, d: char)
    requires s != [] && s[|s| - 1] != d
    ensures Join(Split(s, d), d) == s
    decreases |s|
  {
    if d in s {
      var k := SplitStep(s, d);
      JoinSplit(s[k + 1..], d);
      JoinCons(s[..k], Split(s[k + 1..], d), d);
    } else {
      assert IndexOf(s, d) == |s|;
    }
  }

  /** ... and when it does, the dropped trailing delimiter is the only loss. */
  lemma {:induction false} JoinSplitTerminated(s: string, d: char)
    requires s != [] && s[|s| - 1] == d
    ensures Join(Split(s, d), d) + [d] == s
    decreases |s|
  {
    var k := SplitStep(s, d);
    var head, rest := s[..k], s[k + 1..];
    if rest != [] {
      JoinSplitTerminated(rest, d);
      JoinCons(head, Split(rest, d), d);
    }
  }

  /** One step of splitting a text that contains the delimiter. */
  lemma SplitStep(s: string, d: char) returns (k: nat)
    requires d in s
    ensures k < |s| && s[k] == d && d !in s[..k]
    ensures s == s[..k] + [d] + s[k + 1..]
    ensures Split(s, d) == [s[..k]] + Split(s[k + 1..], d)
    ensures s[|s| - 1] == d && s[k + 1..] != [] ==> s[k + 1..][|s[k + 1..]| - 1] == d
    ensures s[|s| - 1] != d ==> s[k + 1..] != [] && s[k + 1..][|s[k + 1..]| - 1] != d
  {
    k := IndexOf(s, d);
  }

  /** Splitting a text whose every piece is terminated by `d` recovers the
      pieces, empty ones included. */
  lemma {:induction false} SplitJoin(ps: seq<string>, d: char)
    requires ps != []
    requires forall i :: 0 <= i < |ps| ==> d !in ps[i]
    ensures Split(Join(ps, d) + [d], d) == ps
    decreases |ps|
  {
    var t := Join(ps, d) + [d];
    if |ps| == 1 {
      assert t == ps[0] + [d] + [];
      IndexOfAfterFree(ps[0], [], d);
      assert t[..|ps[0]|] == ps[0];
      assert t[|ps[0]| + 1..] == [];
    } else {
      var tail := Join(ps[1..], d) + [d];
      JoinCons(ps[0], ps[1..], d);
      assert t == ps[0] + [d] + tail;
      IndexOfAfterFree(ps[0], tail, d);
      assert t[..|ps[0]|] == ps[0];
      assert t[|ps[0]| + 1..] == tail;
      SplitJoin(ps[1..], d);
      assert [ps[0]] + ps[1..] == ps;
    }
  }

  /** Appending one terminated line to a text that is empty or ends in the
      delimiter appends exactly one piece. */
  lemma SplitAppendLine(c: string, line: string, d: char)
    requires c == [] || c[|c| - 1] == d
    requires d !in line
    ensures Split(c + line + [d], d) == Split(c, d) + [line]
  {
    if c == [] {
      assert c + line + [d] == Join([line], d) + [d];
      SplitJoin([line], d);
    } else {
      var ps := Split(c, d);
      var qs := ps + [line];
      JoinSplitTerminated(c, d);
      JoinSnoc(ps, line, d);
      assert Join(qs, d) + [d] == c + line + [d];
      assert forall i :: 0 <= i < |qs| ==> d !in qs[i] by {
        forall i | 0 <= i < |qs|
          ensures d !in qs[i]
        {
          if i < |ps| {
            assert qs[i] == ps[i];
          }
        }
      }
      SplitJoin(qs, d);
    }
  }

  // ---------------------------------------------------------------------
  // Characters and case

  /** `tolower` in the "C" locale: only ASCII upper-case letters change. */
  function ToLowerChar(c: char): char
  {
    if 'A' <= c <= 'Z' then (c as int + 32) as char else c
  }

  predicate IsUpper(c: char)
  {
    'A' <= c <= 'Z'
  }

  /** `std::transform` with `tolower` over a string: no upper-case letter
      is left, an upper-case letter becomes the letter 32 code points
      above it, and every other character is kept. */
  function ToLower(s: string): (r: string)
    ensures |r| == |s|
    ensures forall i :: 0 <= i < |r| ==> !IsUpper(r[i])
    ensures forall i :: 0 <= i < |s| && IsUpper(s[i]) ==> r[i] as int == s[i] as int + 32
    ensures forall i :: 0 <= i < |s| && !IsUpper(s[i]) ==> r[i] == s[i]
  {
    seq(|s|, i requires 0 <= i < |s| => ToLowerChar(s[i]))
  }

  /** Lower-casing twice is lower-casing once. */
  lemma ToLowerIdempotent(s: string)
    ensures ToLower(ToLower(s)) == ToLower(s)
  {
    var t := ToLower(s);
    assert forall i :: 0 <= i < |t| ==> ToLower(t)[i] == t[i];
  }

  /** Lower-casing commutes with taking a suffix. */
  lemma ToLowerSuffix(s: string, k: nat)
    requires k <= |s|
    ensures ToLower(s[k..]) == ToLower(s)[k..]
  {
    assert forall i :: 0 <= i < |s| - k ==> ToLower(s[k..])[i] == ToLower(s)[k..][i];
  }

  /** Lower-casing distributes over concatenation. */
  lemma ToLowerConcat(a: string, b: string)
    ensures ToLower(a + b) == ToLower(a) + ToLower(b)
  {
    assert forall i :: 0 <= i < |a + b| ==> ToLower(a + b)[i] == (ToLower(a) + ToLower(b))[i];
  }

  /** `s` with every occurrence of `c` removed
      (`s.erase(std::remove(s.begin(), s.end(), c), s.end())`). */
  function RemoveAll(s: string, c: char): (r: string)
    ensures c !in r
    ensures forall x :: x in r <==> x in s && x != c
    ensures Seqs.SubsequenceOf(r, s)
    ensures |r| == Seqs.Count(s, Other(c))
  {
    Seqs.FilterIsSubsequence(s, Other(c));
    Seqs.FilterLength(s, Other(c));
    Seqs.Filter(s, Other(c))
  }

  /** The characters other than `c`. */
  function Other(c: char): char -> bool
  {
    x => x != c
  }

  // ---------------------------------------------------------------------
  // Decimal text: std::to_string and std::stoi

  predicate IsDigit(c: char) { '0' <= c <= '9' }

  function DigitChar(n: nat): char
    requires n < 10
  {
    ('0' as int + n) as char
  }

  /** `std::to_string` of a non-negative integer. */
  function NatToString(n: nat): (r: string)
    ensures r != []
    ensures forall i :: 0 <= i < |r| ==> IsDigit(r[i])
  {
    if n < 10 then [DigitChar(n)] else NatToString(n / 10) + [DigitChar(n % 10)]
  }

  /** The number of digits `std::to_string` writes. */
  lemma {:induction false} NatToStringLength(n: nat)
    ensures n < 10 ==> |NatToString(n)| == 1
    ensures 10 <= n < 100 ==> |NatToString(n)| == 2
    ensures 100 <= n < 1000 ==> |NatToString(n)| == 3
    ensures 1000 <= n ==> |NatToString(n)| >= 4
  {
    if n >= 10 {
      NatToStringLength(n / 10);
    }
  }

  /** `std::to_string` of an `int`. */
  function IntToString(k: int): string
  {
    if k < 0 then "-" + NatToString(-k) else NatToString(k)
  }

  function DigitValue(c: char): nat
    requires IsDigit(c)
  {
    c as int - '0' as int
  }

  /** The value of a string of decimal digits, most significant first. */
  function DigitsValue(ds: string): nat
    requires forall i :: 0 <= i < |ds| ==> IsDigit(ds[i])
  {
    if ds == [] then 0
    else DigitsValue(ds[..|ds| - 1]) * 10 + DigitValue(ds[|ds| - 1])
  }

  /** The longest prefix of `s` made of decimal digits. */
  function DigitPrefix(s: string): (r: string)
    ensures |r| <= |s| && r == s[..|r|]
    ensures forall i :: 0 <= i < |r| ==> IsDigit(r[i])
    ensures |r| < |s| ==> !IsDigit(s[|r|])
  {
    if s == [] || !IsDigit(s[0]) then [] else [s[0]] + DigitPrefix(s[1..])
  }

  predicate IsSpace(c: char)
  {
    c == ' ' || c == '\t' || c == '\n' || c == '\r' || c == 11 as char || c == 12 as char
  }

  function SkipSpace(s: string): (r: string)
    ensures r == [] || !IsSpace(r[0])
    ensures |r| <= |s| && r == s[|s| - |r|..]
  {
    if s != [] && IsSpace(s[0]) then SkipSpace(s[1..]) else s
  }

  const IntMin: int := -0x8000_0000
  const IntMax: int := 0x7FFF_FFFF

  /** `std::stoi(s)`: leading white space, an optional sign and the longest
      run of decimal digits; `None` where the call throws
      (`std::invalid_argument` when there is no digit,
      `std::out_of_range` when the value does not fit a 32-bit `int`). */
  function Stoi(s: string): (r: Option<int>)
    ensures r.Some? ==> IntMin <= r.value <= IntMax
  {
    var t := SkipSpace(s);
    if t != [] && t[0] == '-' then ParseDigits(t[1..], true)
    else if t != [] && t[0] == '+' then ParseDigits(t[1..], false)
    else ParseDigits(t, false)
  }

  /** The digits at the start of `u`, negated when `neg`, if they fit. */
  function ParseDigits(u: string, neg: bool): (r: Option<int>)
    ensures r.Some? ==> IntMin <= r.value <= IntMax
  {
    var ds := DigitPrefix(u);
    if ds == [] then None
    else
      var v: int := if neg then -(DigitsValue(ds) as int) else DigitsValue(ds);
      if v < IntMin || v > IntMax then None else Some(v)
  }

  lemma {:induction false} DigitsValueOfNat(n: nat)
    ensures DigitsValue(NatToString(n)) == n
  {
    if n >= 10 {
      var r := NatToString(n);
      DigitsValueOfNat(n / 10);
      assert r[..|r| - 1] == NatToString(n / 10);
    }
  }

  lemma {:induction false} DigitsValueLeadingZero(ds: string)
    requires forall i :: 0 <= i < |ds| ==> IsDigit(ds[i])
    ensures DigitsValue("0" + ds) == DigitsValue(ds)
    decreases |ds|
  {
    if ds != [] {
      var z := "0" + ds;
      assert z[..|z| - 1] == "0" + ds[..|ds| - 1];
      DigitsValueLeadingZero(ds[..|ds| - 1]);
    } else {
      assert ("0" + ds)[..0] == [];
    }
  }

  lemma DigitPrefixAll(ds: string)
    requires forall i :: 0 <= i < |ds| ==> IsDigit(ds[i])
    ensures DigitPrefix(ds) == ds
  {
  }

  lemma StoiOfDigits(ds: string)
    requires ds != [] && forall i :: 0 <= i < |ds| ==> IsDigit(ds[i])
    requires DigitsValue(ds) <= IntMax
    ensures Stoi(ds) == Some(DigitsValue(ds))
  {
    var c := ds[0];
    assert IsDigit(c);
    assert !IsSpace(c) && c != '-' && c != '+';
    assert SkipSpace(ds) == ds;
    assert Stoi(ds) == ParseDigits(ds, false);
    DigitPrefixAll(ds);
    var v: int := DigitsValue(ds);
    assert IntMin <= v <= IntMax;
  }

  /** `std::stoi` reads back what `std::to_string` wrote, also after any
      number of leading zeros. */
  lemma StoiZeroPadded(zeros: nat, n: nat)
    requires n <= IntMax
    ensures Stoi(Zeros(zeros) + NatToString(n)) == Some(n)
  {
    ZerosValue(zeros, NatToString(n));
    DigitsValueOfNat(n);
    StoiOfDigits(Zeros(zeros) + NatToString(n));
  }

  function Zeros(k: nat): (r: string)
    ensures |r| == k && forall i :: 0 <= i < k ==> r[i] == '0'
  {
    if k == 0 then [] else "0" + Zeros(k - 1)
  }

  lemma {:induction false} ZerosValue(k: nat, ds: string)
    requires forall i :: 0 <= i < |ds| ==> IsDigit(ds[i])
    ensures forall i :: 0 <= i < |Zeros(k) + ds| ==> IsDigit((Zeros(k) + ds)[i])
    ensures DigitsValue(Zeros(k) + ds) == DigitsValue(ds)
  {
    if k > 0 {
      ZerosValue(k - 1, ds);
      var z := Zeros(k - 1) + ds;
      assert Zeros(k) + ds == "0" + z;
      forall i | 0 <= i < |"0" + z|
        ensures IsDigit(("0" + z)[i])
      {
        if i > 0 {
          assert ("0" + z)[i] == z[i - 1];
        }
      }
      DigitsValueLeadingZero(z);
    } else {
      assert Zeros(k) + ds == ds;
    }
  }

  lemma StoiOfInt(k: int)
    requires IntMin <= k <= IntMax
    ensures Stoi(IntToString(k)) == Some(k)
  {
    if k >= 0 {
      DigitsValueOfNat(k);
      StoiOfDigits(NatToString(k));
    } else {
      var ds := NatToString(-k);
      DigitsValueOfNat(-k);
      DigitPrefixAll(ds);
      assert IsDigit(ds[0]);
      assert SkipSpace("-" + ds) == "-" + ds;
      assert ("-" + ds)[1..] == ds;
      assert ParseDigits(ds, true) == Some(k);
    }
  }

  // ---------------------------------------------------------------------
  // Searching

  /** `s.find_last_of(cs)`: the last index holding one of `cs`. */
  function FindLastOf(s: string, cs: set<char>): (r: Option<nat>)
    ensures r.Some? ==> r.value < |s| && s[r.value] in cs
                        && forall i :: r.value < i < |s| ==> s[i] !in cs
    ensures r.None? ==> forall i :: 0 <= i < |s| ==> s[i] !in cs
  {
    if s == [] then None
    else if s[|s| - 1] in cs then Some(|s| - 1)
    else FindLastOf(s[..|s| - 1], cs)
  }

  /** `pat` occurs in `s` starting at index `i`. */
  predicate OccursAt(s: string, pat: string, i: nat)
  {
    i + |pat| <= |s| && s[i..i + |pat|] == pat
  }

  lemma OccursShift(s: string, pat: string, i: nat)
    requires 1 <= i && s != []
    ensures OccursAt(s, pat, i) <==> OccursAt(s[1..], pat, i - 1)
  {
    if i + |pat| <= |s| {
      assert s[i..i + |pat|] == s[1..][i - 1..i - 1 + |pat|];
    }
  }

  /** `s.find(pat)`: the first index where `pat` occurs. */
  function Find(s: string, pat: string): (r: Option<nat>)
    ensures r.Some? ==> OccursAt(s, pat, r.value)
                        && forall i: nat :: i < r.value ==> !OccursAt(s, pat, i)
    ensures r.None? ==> forall i: nat :: !OccursAt(s, pat, i)
    decreases |s|
  {
    if |s| < |pat| then None
    else if s[..|pat|] == pat then Some(0)
    else
      var r := Find(s[1..], pat);
      assert forall i: nat :: 1 <= i ==> (OccursAt(s, pat, i) <==> OccursAt(s[1..], pat, i - 1)) by {
        forall i: nat | 1 <= i
          ensures OccursAt(s, pat, i) <==> OccursAt(s[1..], pat, i - 1)
        {
          OccursShift(s, pat, i);
        }
      }
      match r
      case None => None
      case Some(j) => Some(j + 1)
  }
}

=== FILE: vec_property.dfy ===
/** The web GUI's editor for vector properties: the value is held as a
    JSON array text, and a changed component is saved back to the engine
    as a Lua-style list, the JSON text with its brackets removed. */
module VecProperty {
  import Seqs
  import opened Text

  /** `s.replace(c, '')` with a one-character pattern: the first `c` is
      removed, if there is one. */
  function RemoveFirst(s: string, c: char): (r: string)
    ensures c in s ==> |r| == |s| - 1
    ensures c !in s ==> r == s
  {
    var i := IndexOf(s, c);
    if i == |s| then s else s[..i] + s[i + 1..]
  }

  /** `jsonToLua`: the first '[' and then the first ']' removed. */
  function JsonToLua(json: string): (r: string)
  {
    RemoveFirst(RemoveFirst(json, '['), ']')
  }

  predicate NotBracket(c: char) { c != '[' && c != ']' }

  function Plain(): char -> bool { c => NotBracket(c) }

  /** Removing the first `c` keeps every other character in order. */
  lemma RemoveFirstKeepsOthers(s: string, c: char, p: char -> bool)
    requires !p(c)
    ensures Seqs.Filter(RemoveFirst(s, c), p) == Seqs.Filter(s, p)
  {
    var i := IndexOf(s, c);
    if i < |s| {
      var a, b := s[..i], s[i + 1..];
      assert s == a + [c] + b;
      assert RemoveFirst(s, c) == a + b;
      Seqs.FilterConcat(a + [c], b, p);
      Seqs.FilterConcat(a, [c], p);
      Seqs.FilterConcat(a, b, p);
      assert Seqs.Filter([c], p) == [];
      assert Seqs.Filter(a + [c], p) == Seqs.Filter(a, p);
    }
  }

  /** Removing the first `c` leaves any other character's presence
      unchanged. */
  lemma RemoveFirstOther(s: string, c: char, d: char)
    requires c != d
    ensures d in RemoveFirst(s, c) <==> d in s
  {
    var i := IndexOf(s, c);
    if i < |s| {
      assert s == s[..i] + [c] + s[i + 1..];
      assert RemoveFirst(s, c) == s[..i] + s[i + 1..];
    }
  }

  /** The conversion shortens the text by the number of distinct bracket
      kinds in it, removes no other character and keeps the others in
      order. */
  lemma JsonToLuaRemovesBrackets(json: string)
    ensures |JsonToLua(json)| == |json| - (if '[' in json then 1 else 0) - (if ']' in json then 1 else 0)
    ensures Seqs.Filter(JsonToLua(json), Plain()) == Seqs.Filter(json, Plain())
  {
    var once := RemoveFirst(json, '[');
    RemoveFirstOther(json, '[', ']');
    RemoveFirstKeepsOthers(json, '[', Plain());
    RemoveFirstKeepsOthers(once, ']', Plain());
  }

  /** A bracketed body without brackets converts to the body. */
  lemma JsonToLuaOfArray(body: string)
    requires '[' !in body && ']' !in body
    ensures JsonToLua("[" + body + "]") == body
  {
    var s := "[" + body + "]";
    assert IndexOf(s, '[') == 0;
    var once := s[1..];
    assert once == body + "]";
    IndexOfAfterFree(body, [], ']');
    assert body + "]" == body + [']'] + [];
  }

  /** No `c` appears in pieces joined with a separator other than `c`. */
  lemma {:induction false} JoinFree(ps: seq<string>, d: char, c: char)
    requires c != d && forall i :: 0 <= i < |ps| ==> c !in ps[i]
    ensures c !in Join(ps, d)
  {
    if |ps| > 1 {
      JoinFree(ps[1..], d, c);
    }
  }

  /** `JSON.stringify` of an array of numbers; `number` formats one
      number. */
  function Stringify(xs: seq<real>, number: real -> string): string
  {
    "[" + Join(Seqs.MapSeq(xs, number), ',') + "]"
  }

  /** What `onChange(index)` produces when the input shows `x`: the new
      state, and the value saved to the engine. */
  datatype Change = Change(state: seq<real>, saved: string)

  /** `onChange(index)`; `index` is the position of an input the editor
      rendered for the current value, so it lies inside the array. */
  function OnChange(state: seq<real>, index: nat, x: real, number: real -> string): (r: Change)
    requires index < |state|
    ensures |r.state| == |state| && r.state[index] == x
    ensures forall i :: 0 <= i < |state| && i != index ==> r.state[i] == state[i]
    ensures r.saved == JsonToLua(Stringify(r.state, number))
  {
    var s := state[index := x];
    Change(s, JsonToLua(Stringify(s, number)))
  }

  /** When numbers format without brackets or commas, the saved value is
      the components joined by commas, and it splits back into one
      formatted number per component. */
  lemma SavedIsList(state: seq<real>, index: nat, x: real, number: real -> string)
    requires index < |state|
    requires forall y :: '[' !in number(y) && ']' !in number(y) && ',' !in number(y)
    ensures var r := OnChange(state, index, x, number);
      && r.saved == Join(Seqs.MapSeq(r.state, number), ',')
      && Split(r.saved + ",", ',') == Seqs.MapSeq(r.state, number)
  {
    var r := OnChange(state, index, x, number);
    var ps := Seqs.MapSeq(r.state, number);
    JoinFree(ps, ',', '[');
    JoinFree(ps, ',', ']');
    JsonToLuaOfArray(Join(ps, ','));
    SplitJoin(ps, ',');
  }

  /** Two changes at the same index: the later one wins. At different
      indices they commute. */
  lemma OnChangeTwice(state: seq<real>, i: nat, j: nat, x: real, y: real, number: real -> string)
    requires i < |state| && j < |state|
    ensures i == j ==> OnChange(OnChange(state, i, x, number).state, j, y, number) == OnChange(state, j, y, number)
    ensures i != j ==>
      OnChange(OnChange(state, i, x, number).state, j, y, number) == OnChange(OnChange(state, j, y, number).state, i, x, number)
  {
    if i == j {
      assert state[i := x][j := y] == state[j := y];
    } else {
      assert state[i := x][j := y] == state[j := y][i := x];
    }
  }
}

=== FILE: wrappers.dfy ===
/** Failure-carrying results shared by every module of the model.
    A C++ exception thrown by the modelled code (std::stoi on a non-number,
    std::string::substr past the end, std::vector::at out of range) is
    modelled as `None`. */
module Wrappers {

  datatype Option<+T> = None | Some(value: T) {

    function GetOr(default: T): T {
      match this
      case Some(v) => v
      case None => default
    }
  }
}
